=== FILE: README.md ===
# sift.js query engine, modelled in Dafny

sift.js turns a MongoDB-style query object into a predicate over JavaScript
values. This project models the engine's core as pure Dafny functions over an
immutable value datatype, and proves what the engine promises about them:

- `Values`: JavaScript values (`undefined`, `null`, booleans, integer
  numbers, strings, dates, arrays and plain objects whose field sequence is
  the object's `for…in` enumeration order, integer-like keys first), `===`,
  truthiness, `typeof`, property access (`get`) and own-key presence (`has`).
- `Errors`: the errors the engine raises, their messages, and a `Result`.
- `Comparison`: the three-way comparator `compare` and the normaliser
  `comparable`.
- `MaybeAsync`: results that are synchronous booleans, deferred (promise)
  answers, or raised exceptions; `maybeAsyncThen`, `maybeAsyncEvery`,
  `maybeAsyncSome` and `negate`, with deferred answers kept abstract and given
  a meaning through an environment that says how each pending promise settles.
- `Equality`: deep equality `isEqual`, and `getAllKeys` / `isExactObject`,
  which decide when a query is matched by deep equality.
- `Paths`: splitting a dotted key and resolving it against a document
  (`findValues`), fanning out over arrays on non-numeric segments.
- `TypeAliases`: the `$type` alias table, the preparation of a `$type`
  argument and the type test, as written and as corrected (see Findings).
- `Validators`: the compiled validator tree and `Eval`, what each validator
  answers for a value `b` found under key `k` in parent `o`. This covers the
  operators, the `or` / `and` array wrappers and the path aggregator
  `nestedValidator`.
- `Compiler`: `parse` with its `prepare` table, `createRootValidator` and
  `sift`.
- `Properties`, `Operators`, `Scenarios`: lemmas relating the compiled
  queries to what they mean.

The host is a parameter (`Validators.Host`): the regular-expression engine,
`$where` functions and caller-supplied operators are uninterpreted functions.
The `select` projection of the options is an uninterpreted function too.

## Model

| member | source | states |
|---|---|---|
| Comparison.Compare | src/index.js:638-648 | `compare(a, b)` is 0 exactly when `a === b`; 1 or -1 only when both operands have the same `typeof`; numbers, booleans (false before true) and values that convert to numbers are ordered by `<` and `>` on those numbers; arrays and plain objects are never ordered |
| Comparison.CompareOnStrings | src/index.js:640-646 | two strings compare as -1 exactly when the first is lexicographically below the second, and 1 exactly when it is above |
| Comparison.CompareReflexive | src/index.js:638-639 | `compare(a, a)` is 0 for every non-reference value |
| Comparison.CompareAntisymmetric | src/index.js:638-648 | swapping the operands flips 1 and -1 and keeps 0 and undefined |
| Comparison.CompareTotalOnPrimitives | src/index.js:640-646 | two numbers, two strings or two booleans are always ordered one way or the other |
| Comparison.CompareTransitive | src/index.js:640-646 | `compare(a, b) < 0` and `compare(b, c) < 0` give `compare(a, c) < 0` |
| Comparison.Comparable | src/index.js:23-33 | normalising yields a value with no date at the top or inside arrays (dates inside plain objects are kept), leaves such values unchanged, maps dates to their milliseconds, and maps an array element by element |
| Comparison.ComparableIdempotent | src/index.js:23-33 | normalising twice is normalising once |
| MaybeAsync.ThenMaybe | src/utils.js:12-17 | on a plain value the continuation is applied at once; a promise stays deferred; an exception propagates |
| MaybeAsync.ThenMaybeSettles | src/utils.js:12-17 | a chained promise settles to the continuation applied to what the original settles to |
| MaybeAsync.EveryFromMeaning | src/utils.js:25-39 | the loop from any item on, with the promises collected so far, returns the first synchronous falsy result (or exception) it meets, and otherwise combines the earlier promises with those it collects |
| MaybeAsync.EveryMaybeMeaning | src/utils.js:23-50 | `[]` gives true; the first synchronous falsy result (or exception) decides; with none, the result combines exactly the collected promises |
| MaybeAsync.EveryDeferredExactly | src/utils.js:28-39 | the result is deferred exactly when some promise appears and no synchronous falsy result does |
| MaybeAsync.EveryShortCircuits | src/utils.js:30-37 | items after the first synchronous falsy result do not affect the answer |
| MaybeAsync.EveryOfSync | src/utils.js:23-39 | on synchronous results the answer is synchronous and is the conjunction |
| MaybeAsync.EverySettlesToConjunction | src/utils.js:40-49 | the deferred answer settles to true exactly when every item settles to true |
| MaybeAsync.SomeMaybeMeaning | src/utils.js:52-56 | `[]` gives false; the first synchronous truthy result decides, even after promises; all synchronous falsy gives false |
| MaybeAsync.SomeShortCircuits | src/utils.js:52-56 | items after the first synchronous truthy result do not affect the answer |
| MaybeAsync.SomeOfSync | src/utils.js:52-56 | on synchronous results the answer is synchronous and is the disjunction |
| MaybeAsync.SomeSettlesToDisjunction | src/utils.js:52-56 | the answer settles to true exactly when some item settles to true |
| MaybeAsync.EveryIsDualOfSome | src/utils.js:52-56 | `every(xs)` settles to the negation of `some` over the negated items |
| MaybeAsync.PendingsAreDeferred | src/utils.js:28-29 | the promises collected are exactly the deferred items |
| Values.Lookup | src/index.js:533 | reading an absent key gives undefined; a present key gives one of its values |
| Values.ArrayIndexOfDecimal | src/utils.js:19-21 | the property name of an array index reads back as that index |
| Equality.KeyCheckMeaning | src/index.js:565-574 | on objects with distinct keys, equal key counts and every key of the second deletable from the first's key set mean equal key sets, and conversely |
| Equality.ValueCheckMeaning | src/index.js:576-580 | reading the values of the first object by position or by key gives the same value check |
| Equality.ObjectsEqualExactly | src/index.js:562-582 | two objects are deep-equal exactly when they have the same key set and pointwise deep-equal values |
| Equality.ExtraFieldRejected | src/index.js:565-574 | an object with a key the other lacks is not deep-equal to it, either way round |
| Equality.IsEqualReflexive | src/index.js:557-597 | every date-free value is deep-equal to itself |
| Equality.IsEqualSymmetric | src/index.js:557-597 | deep equality is symmetric |
| Equality.KeysDeletableMeaning | src/index.js:569-574 | deleting the second object's keys from the first's key set succeeds exactly when each is present |
| Equality.ExactObjectIsPlainKeys | src/index.js:599-613 | a query is exact exactly when no key at any depth of nested objects holds `$` or `.` |
| Paths.Split | src/index.js:548 | splitting yields at least one segment, no segment contains a dot, and joining gives the key back |
| Paths.SplitJoin | src/index.js:548 | splitting a joined path of dot-free segments gives the segments back |
| Paths.FindValues | src/index.js:475-493 | every location found that is not null or undefined carries the path's last segment as its key |
| Paths.SingleLocation | src/index.js:475-493 | without an array to fan out over, resolution yields exactly one location: the value plain property access reaches, the key it is read under and the value it is read from |
| Paths.EmptyArrayYieldsNothing | src/index.js:486-489 | fanning out over an empty array yields no location |
| Paths.LastSegmentOverObjects | src/index.js:486-489 | a last non-numeric segment applied to an array of objects reads that field of each element, each element being the parent |
| Paths.FanOutCount | src/index.js:486-489 | fanning out yields one location per element when no element fans out further |
| TypeAliases.PrepareType | src/index.js:426-431 | a string argument is resolved exactly when the table knows it; an unknown one is an `unknown type alias` error; numeric codes resolve through the table (corrected) |
| TypeAliases.PrepareTypeAsWritten | src/index.js:426-431 | as written: strings resolve through the table; every non-string argument passes through unchanged |
| TypeAliases.ObjectTypeIsVanilla | src/index.js:218-219 | `{$type: "object"}` accepts exactly the objects with no own `constructor` key, as `isVanillaObject` (src/index.js:509-511) does |
| TypeAliases.TypeofNames | src/index.js:59-77 | `number`, `boolean` and `string` test `typeof`; `double` and `bool` are synonyms |
| TypeAliases.VerbatimAliases | src/index.js:59-73 | every verbatim type name is a key of the table naming itself |
| TypeAliases.UnknownAliasRejected | src/index.js:428-429 | preparing the `$type` argument `"beep"` fails with the message `unknown type alias: beep` |
| Properties.UnknownTypeAliasRejected | src/index.js:426-431 | compiling and filtering with `{$type: "beep"}` both fail with `unknown type alias: beep` |
| Properties.UnknownKeyRejected | src/index.js:528-546 | a plain query object (no own `constructor` key) any of whose keys is an unknown `$` operator fails to compile, wherever that key stands |
| TypeAliases.NumericCodeAsWritten | src/index.js:79-91 | as written, `{$type: 2}` is never looked up and raises on a string, where the table says `string` |
| TypeAliases.CodesResolve | src/index.js:79-91 | corrected, every numeric code tests for the type the table names |
| TypeAliases.JavascriptAliasAsWritten | src/index.js:77 | as written, `javascript` resolves to `function`, which the `$type` switch has no case for |
| TypeAliases.AliasesNeverRaise | src/index.js:214-248 | corrected, no alias of the table leads to a raising test |
| Validators.PrepareEq | src/index.js:329-351 | `[]` gets the empty-array test, `null` the nullish test, anything else a `compare` test against the normalised parameter |
| Validators.TestOne | src/index.js:98-142 | the element tests answer synchronously, except `$mod`, which raises exactly when its parameter is null or undefined |
| Validators.ArrayNumberOfElements | src/index.js:140-142 | an array converts to a number as its string does: the empty array and a one-element array of `null` or `undefined` to 0, a one-element array of a number, string or array as its element, one of a boolean, date or plain object to no number, and a longer one to no number |
| Validators.Broadcast | src/index.js:38-45 | a non-empty array matches when some element does, `$mod` included; anything else, the empty array included, is tested itself; only `$mod` with a nullish parameter raises |
| Validators.NotEqual | src/index.js:50-57 | `$ne` on a non-empty array holds when no element is equal; anything else is tested itself |
| Validators.InDecide | src/index.js:147-194 | on an array document, `$in` asks whether some normalised element is `===` to an entry; nullish parameters give false, other non-arrays raise; `undefined` is found by a nullish entry; an entry `===` to the value makes the answer (eventually) true unless an entry before it raises |
| Validators.Fold | src/index.js:459-469 | over several locations, exceptions propagate in order, and the answers are AND-ed or OR-ed from the starting flag |
| Validators.AggregateMeaning | src/index.js:446-470 | one location returns the inner answer itself; otherwise answers are AND-ed under `$ne` and OR-ed otherwise; no location gives the `$ne` flag |
| Validators.PureIsSync | src/index.js:437-441 | a validator that calls no host function and raises nothing answers synchronously |
| Validators.EntryResults | src/index.js:183-191 | each `$in` entry answers as its own compiled query called with its index and the parameter, chained with the plain-object check, so no entry matches a plain object; a failed entry raises its error |
| Compiler.Compile | src/index.js:509-524 | a literal query always compiles; an object with an own `constructor` key is not plain and compiles as `{$eq: query}`; a plain exact object compiles to deep equality; an unknown-operation error names a `$` key occurring in the query that no operator claims |
| Compiler.CompileKeys | src/index.js:528-551 | one validator per key other than `$options`; unknown-operation errors come from a key of the query |
| Compiler.CompileKey | src/index.js:535-550 | built-in operators win over caller-supplied ones; a caller-supplied operator gets the normalised parameter; an unknown `$` key is an error |
| Compiler.OperandKeys | src/index.js:528-531 | the compiled keys are the query's keys other than `$options` |
| Compiler.EntriesCompiledAlone | src/index.js:185 | each `$in` entry is compiled as the root query it is, with no options |
| Compiler.InOf | src/index.js:147-194 | `$in` keeps its normalised parameter and one compiled entry per element |
| Compiler.Sift | src/index.js:618-633 | `sift` fails exactly when compiling the query fails; otherwise it applies the compiled validator to the projected value |
| Compiler.CompileIgnoresSelect | src/index.js:528-551 | the compiled query depends on the caller-supplied operator names alone, never on the `select` projection |
| Compiler.SiftProjects | src/index.js:618-633 | a `select` option is the same as applying the filter to the projected value without one |
| Properties.SingleOperator | src/index.js:528-553 | a one-operator query compiles to that operator's validator itself |
| Properties.LiteralQueryIsEq | src/index.js:517-520 | a query that is not a plain object compiles as `{$eq: query}` |
| Properties.ExactQueryIsDeepEquality | src/index.js:509-524 | a plain query (no own `constructor` key) without `$` or `.` in any key compiles to deep equality with it |
| Properties.ConstructorKeyMatchesNothing | src/index.js:509-519 | a query object with an own `constructor` key is rewritten to `{$eq: query}`, which compares by reference and so matches no document |
| Properties.ExactQueryRejectsExtraFields | src/index.js:522-524 | so a document with an extra field does not match an exact query |
| Properties.ExactQueryMatchesReordered | src/index.js:557-582 | and, for a plain query, a document with the same fields in another order does |
| Properties.UnknownFirstKeyRejected | src/index.js:545-546 | an unknown `$` key as the first key of a plain query object fails with `Unknown operation <key>` |
| Properties.UnknownOperationMessage | src/index.js:545-546 | `{$aaa: 1}` fails with `Unknown operation $aaa` |
| Properties.OptionsKeySkipped | src/index.js:529-531 | the key loop passes over an `$options` key wherever it stands; the key still makes the query non-exact and gives `$regex` its flags |
| Properties.CompileKeysInOrder | src/index.js:528-551 | the i-th validator of the key loop is the i-th key other than `$options`, compiled alone |
| Properties.CompileKeysSucceeds | src/index.js:528-551 | the key loop succeeds exactly when every key other than `$options` compiles |
| Properties.SiblingKeysConjoin | src/index.js:513-553 | a plain, non-exact query object compiles exactly when each operand key does; one operand key gives that key's validator, several give the conjunction of the keys' validators in key order |
| Properties.CompileListInOrder | src/index.js:363-389 | the i-th part of `$and`, `$all`, `$or` or `$nor` is the i-th array element compiled as a query |
| Properties.CompileListSucceeds | src/index.js:363-389 | the array compiles exactly when every element does |
| Properties.ConnectiveQuery | src/index.js:363-389 | `{$and: [q1..qn]}` (and `$all`, `$or`, `$nor`) compiles exactly when each `qi` does, to the operator over the compiled `qi` in order |
| Properties.AndQuery | src/index.js:286-288 | `{$and: [q1..qn]}` of synchronous queries matches exactly when every `qi` matches |
| Properties.OrQuery | src/index.js:272-277 | `{$or: [q1..qn]}` of synchronous queries matches exactly when some `qi` matches |
| Properties.NorQuery | src/index.js:279-281 | `{$nor: [q1..qn]}` of synchronous queries matches exactly when no `qi` matches |
| Properties.AllOfMeaning | src/index.js:286-288 | `$and` of synchronous parts is true exactly when every part is |
| Properties.AnyOfMeaning | src/index.js:272-274 | `$or` of synchronous parts is true exactly when some part is |
| Properties.NoneOfMeaning | src/index.js:279-281 | `$nor` of synchronous parts is true exactly when no part is |
| Properties.NotMeaning | src/index.js:206-208 | `$not` negates a synchronous answer and chains the negation onto a deferred one |
| Properties.ElemMatchMeaning | src/index.js:307-312 | `$elemMatch` on an array is true exactly when some element, tested alone, matches |
| Properties.SyncAnswers | src/utils.js:23-56 | over synchronous answers, `every` is their conjunction, `some` their disjunction and its negation the conjunction of their negations |
| Properties.NestedMeaning | src/index.js:446-470 | a field's single location gives the inner answer; several or none are OR-ed, or AND-ed under a defined `$ne` |
| Operators.ComparisonOperator | src/index.js:112-135 | `$gt`, `$gte`, `$lt`, `$lte` test the value, or some element of a non-empty array, with `compare` against the normalised parameter |
| Operators.OrderingNeedsSameType | src/index.js:638-648 | values of different `typeof` are never ordered, so no comparison operator accepts them |
| Operators.LessThanNullMatchesNoNumber | src/index.js:126-128 | `{$lt: null}` matches no number and no array of numbers |
| Operators.EqOperator | src/index.js:98-100 | `$eq` tests the value, or some element of a non-empty array |
| Operators.NeOperator | src/index.js:105-107 | `$ne` holds on a non-empty array only when no element is equal |
| Operators.EqualsIsStrictEquality | src/index.js:348-350 | the general equality test is `===` of the normalised value and parameter |
| Operators.EqNullMatchesNullish | src/index.js:341-345 | a non-array value matches `{$eq: null}` exactly when it is `null` or `undefined` |
| Operators.EqEmptyArrayMatchesEmptyArrays | src/index.js:336-340 | `{$eq: []}` matches the empty array, or an array holding an empty array |
| Operators.ExistsOperator | src/index.js:317-319 | `$exists` is own-key presence in the parent compared with the truthiness of the parameter |
| Operators.ExistsWithoutParentRaises | src/index.js:317-319 | without a parent object, `$exists` raises |
| Operators.SizeOperator | src/index.js:265-267 | `{$size: n}` matches an array of exactly `n` elements, a non-empty string of `n` characters, an object whose `length` is `n`, and no number, boolean, date, empty string or nullish value |
| Operators.TruncRemOdd | src/index.js:141 | JavaScript `%` takes the sign of the dividend |
| Operators.TruncRemNonNegative | src/index.js:141 | and agrees with the Euclidean remainder on non-negative operands |
| Operators.ModOperator | src/index.js:140-142 | `{$mod: [d, r]}` on an integer tests `b % d == r`; a zero divisor never matches |
| Operators.ModTestMeaning | src/index.js:140-142 | one `$mod` candidate matches when it converts to a number whose truncated remainder by a non-zero divisor is the expected one |
| Operators.ModOverArray | src/index.js:38-45 | `$mod` on a non-empty array matches when some element converts to a number with that remainder |
| Operators.ModOverGroups | test/operations.test.js:89-95 | `{$mod: [2, 0]}` matches `[1, 2, 3, 4]` and not `[7, 9]` |
| Operators.ModOfSingletonArrays | src/index.js:140-142 | one-element arrays count as their element on either side of `$mod`: `{$mod: [2, 1]}` matches `[[3]]` and `{$mod: [[2], [1]]}` matches 3 |
| Operators.GreaterThanFive | src/index.js:112-118 | `{$gt: 5}` matches exactly the numbers above 5, and an array of numbers when one of them is |
| Operators.ModOfNegative | src/index.js:140-142 | `{$mod: [2, 1]}` rejects -3 and accepts 3; `{$mod: [2, -1]}` accepts -3 |
| Operators.ModOfNullishRaises | src/index.js:140-142 | `$mod` with a null or undefined parameter raises, on arrays as on any other value |
| Operators.InCompiles | src/index.js:147-201 | `$in` and `$nin` compile to the membership validator and its negation |
| Operators.InPrimitives | src/index.js:159-193 | `{$in: xs}` with boolean, number or string entries matches a boolean, number or string exactly when it is `===` to some entry |
| Operators.NinPrimitives | src/index.js:199-201 | `{$nin: xs}` matches exactly when it is `===` to none |
| Scenarios.DottedFieldQuery | src/index.js:545-550 | a dotted key compiles to a field validator over its segments, or fails as its value's query fails |
| Scenarios.FieldOverArrayOfObjects | src/index.js:446-493 | a two-segment path over an array of objects, one-element arrays included, tests each element's field, OR-ing the answers, or AND-ing them under `$ne` |
| Scenarios.EqAcrossArray | src/index.js:446-470 | `{"a.b": x}`, `x` not an object, compiles to the `$eq` test of `x` at `a.b`, and matches `{a: [...]}` exactly when some element's `b` passes that test (for `null`: is nullish); never over an empty array |
| Scenarios.NullAcrossArray | src/index.js:341-345 | `{"a.b": null}` matches `{a: [{c: 1}]}`, whose element lacks `b` |
| Scenarios.NeAcrossArray | src/index.js:457-469 | `{"a.b": {$ne: x}}` compiles to the `$ne` test of `x` at `a.b`, and matches exactly when no element's `b` passes the `$eq` test of `x`; always over an empty array |
| Scenarios.NumericSegmentIndexes | src/index.js:483-492 | `{"foo.0": x}` tests the first element of `foo` alone instead of fanning out |

## Left out

- Regular expressions (`$regex`, `$options`, regular-expression parameters of `$eq`, `$ne` and `$in`): the host engine is the uninterpreted `Host.regexTest`; `$regex` on a string applies it, with no claim about matching.
- `$where` and caller-supplied operators: they run caller code, so they are the uninterpreted `Host.runWhere` and `Host.runCustom`. The compile-time `new Function` of a string `$where` is not modelled.
- Function-valued `$eq` parameters: functions are not model values.
- `toJSON` serialisation in `comparable`, and `String(x)` coercions in `$in`. Of those, only the `"null"` printing of a `null` document is modelled. Number parsing covers plain digit strings only (`Number("1e3")`, signs, spaces and hexadecimal are not modelled).
- `$in` whose parameter is a string or an array-like object: modelled as raising a TypeError, as any other non-array parameter does.
- Floating-point numbers, NaN and `-0`: numbers are integers. `$type: "int"` uses the 32-bit range and `long` the safe-integer range instead of float tests.
- Host-specific `$type` kinds (regular expressions, ObjectIDs, buffers, functions, dates recognised by `toString`): no model value has them. Constructors are not model values, so a `$type` argument that is neither a string nor a number is never one: testing a defined value against it raises a TypeError, as `instanceof` does with a non-constructor.
- Ordering of arrays and plain objects against other objects, which JavaScript does through string conversion: reported as unordered. Reference identity: two arrays, objects or dates are never `===`.
- Promise timing, rejections and unhandled-rejection suppression: deferred answers are abstract and settle through an environment, and rejections are not modelled.
- Validators.AggregateMeaning: answers are booleans, while `nestedValidator` combines whatever the inner validators return with bitwise `&=` / `|=`, which is not truthiness-preserving for other values (`0 | "yes"` is 0, `1 & 2` is 0). A deferred inner answer counts as 0. Host answers of `$where` and caller-supplied operators are collapsed to booleans at the host boundary, so such non-boolean results, and the `String(result) !== '[object Object]'` test that `$in` applies to its entries' answers, are not modelled.
- Compiler.CompileBuiltIn: `$type` follows the corrected preparation and test (see Findings), not the source as written: `{$type: 2}` on `"x"` answers true where the source raises, `{$type: 99}` fails to compile where the source compiles and raises when testing a defined value, and `{$type: "javascript"}` answers false where the source raises `internal error: unknown type alias: function`. The as-written behaviour is stated by TypeAliases.NumericCodeAsWritten and TypeAliases.JavascriptAliasAsWritten.
- Strings are sequences of code points: JavaScript strings are UTF-16, so `length`, `$size` on strings, indexing and `<` between strings differ for characters outside the Basic Multilingual Plane.
- Inherited properties, Immutable-style containers with a `get` method, and `has` on values other than objects and arrays: property access covers own properties of plain objects, arrays and strings.
- Validators.InDecide: when no entry is `===` to the value, the answer is what the entries answer, stated only through `Eval` and not as a closed formula.
- Compiler.CompileBuiltIn: `$and`, `$or`, `$nor` and `$all` with a parameter that is not an array fail to compile with a TypeError (`a.map` is not a function); the exact message is not modelled.

## Findings

| source | as written | input that shows it | evidently intended | confidence | as-written member | corrected member |
|---|---|---|---|---|---|---|
| src/index.js:79-91, 426-427, 250-252 | `prepare.$type` returns non-strings unchanged, so the numeric codes of the alias table are never looked up, and the test then applies `instanceof` to a number, which raises | `{$type: 2}` tested on `"x"` raises a TypeError | the code is resolved through the table: `{$type: 2}` tests for strings | not executed | TypeAliases.NumericCodeAsWritten | TypeAliases.CodesResolve |
| src/index.js:77, 214-248 | the alias `javascript` (and code 13) resolves to `function`, which the `$type` switch has no case for | `{$type: "javascript"}` on any value reaches `internal error: unknown type alias: function` | `function` is a type a value can be tested for, false for every non-function | not executed | TypeAliases.JavascriptAliasAsWritten | TypeAliases.AliasesNeverRaise |

=== FILE: async.dfy ===
/** The "maybe-async" boolean combinators: every validator returns either a
    synchronous boolean or a deferred one, and `ThenMaybe`, `EveryMaybe` and
    `SomeMaybe` compose such results, paying for deferral only when some input
    is deferred. A synchronous exception raised while computing an input
    propagates through them unchanged. */
module MaybeAsync {
  import opened Errors

  /** The continuations the engine chains onto a result: `r => r`,
      `r => !r`, and a continuation whose answer is already fixed. */
  datatype Cont = Identity | Negate | Always(b: bool)

  function Apply(k: Cont, b: bool): bool {
    match k
    case Identity => b
    case Negate => !b
    case Always(c) => c
  }

  /** A deferred boolean: an opaque caller-supplied future, a continuation
      chained onto one, or the combination `EveryMaybe` builds, which resolves
      true once all its parts resolve truthy and false as soon as one resolves
      falsy. */
  datatype Future =
    | Pending(id: nat)
    | Chained(src: Future, k: Cont)
    | AllTruthy(parts: seq<Future>)

  /** What a validator returns. */
  datatype Res = Sync(b: bool) | Deferred(f: Future) | Threw(e: Error)

  /** The boolean a future settles to when each opaque future `id` settles
      to `env(id)`. */
  predicate Settle(f: Future, env: nat -> bool)
    decreases f
  {
    match f
    case Pending(id) => env(id)
    case Chained(g, k) => Apply(k, Settle(g, env))
    case AllTruthy(fs) => forall i | 0 <= i < |fs| :: Settle(fs[i], env)
  }

  /** The boolean a result eventually delivers. */
  predicate Eventually(r: Res, env: nat -> bool)
    requires !r.Threw?
  {
    match r
    case Sync(b) => b
    case Deferred(f) => Settle(f, env)
  }

  /** `maybeAsyncThen(value, fn)`: `fn` applied at once to a synchronous
      value, chained onto a deferred one. */
  function ThenMaybe(r: Res, k: Cont): (t: Res)
    ensures r.Sync? ==> t == Sync(Apply(k, r.b))
    ensures t.Deferred? <==> r.Deferred?
    ensures r.Threw? ==> t == r
  {
    match r
    case Sync(b) => Sync(Apply(k, b))
    case Deferred(f) => Deferred(Chained(f, k))
    case Threw(e) => r
  }

  /** Whatever the deferred inputs settle to, the chained result settles to
      the continuation applied to the input's value. */
  lemma ThenMaybeSettles(r: Res, k: Cont, env: nat -> bool)
    requires !r.Threw?
    ensures !ThenMaybe(r, k).Threw?
    ensures Eventually(ThenMaybe(r, k), env) == Apply(k, Eventually(r, env))
  {
  }

  /** `negate`: logical not, through a deferral if need be. */
  function Negated(r: Res): Res {
    ThenMaybe(r, Negate)
  }

  /** A result that decides a conjunction on the spot. */
  predicate Decisive(x: Res) {
    x == Sync(false) || x.Threw?
  }

  predicate FirstDecisive(xs: seq<Res>, k: int) {
    && 0 <= k < |xs|
    && Decisive(xs[k])
    && forall j | 0 <= j < k :: !Decisive(xs[j])
  }

  predicate NoDecisive(xs: seq<Res>) {
    forall j | 0 <= j < |xs| :: !Decisive(xs[j])
  }

  /** The futures among `xs`, in order. */
  function Pendings(xs: seq<Res>): seq<Future> {
    if |xs| == 0 then []
    else (if xs[0].Deferred? then [xs[0].f] else []) + Pendings(xs[1..])
  }

  /** The result once every input has been seen and none decided. */
  function Combine(pending: seq<Future>): Res {
    if |pending| == 0 then Sync(true) else Deferred(AllTruthy(pending))
  }

  /** The loop of `maybeAsyncEvery` from the current item on, with the
      futures collected so far. */
  function EveryFrom(xs: seq<Res>, pending: seq<Future>): Res
    decreases |xs|
  {
    if |xs| == 0 then Combine(pending)
    else
      var rest := EveryFrom(xs[1..], pending + (if xs[0].Deferred? then [xs[0].f] else []));
      match xs[0]
      case Threw(_) => xs[0]
      case Sync(b) => if b then rest else Sync(false)
      case Deferred(f) => rest
  }

  /** The loop stops at the first decisive item and returns it; with none it
      combines the futures collected before and during the walk. */
  lemma {:induction false} EveryFromMeaning(xs: seq<Res>, pending: seq<Future>)
    ensures NoDecisive(xs) ==> EveryFrom(xs, pending) == Combine(pending + Pendings(xs))
    ensures forall k | FirstDecisive(xs, k) :: EveryFrom(xs, pending) == xs[k]
    decreases |xs|
  {
    if |xs| == 0 {
      assert pending + Pendings(xs) == pending;
    } else {
      var pending' := pending + (if xs[0].Deferred? then [xs[0].f] else []);
      EveryFromMeaning(xs[1..], pending');
      assert forall k | FirstDecisive(xs, k) && k > 0 :: FirstDecisive(xs[1..], k - 1);
      assert NoDecisive(xs) ==> NoDecisive(xs[1..]);
      assert pending' + Pendings(xs[1..]) == pending + Pendings(xs);
    }
  }

  /** `maybeAsyncEvery`: the first synchronous false (or exception) decides
      the result and later items are not consulted; otherwise the result is
      true when no item was deferred and a combination of the deferred items
      when some were. */
  function EveryMaybe(xs: seq<Res>): Res {
    EveryFrom(xs, [])
  }

  lemma EveryMaybeMeaning(xs: seq<Res>)
    ensures |xs| == 0 ==> EveryMaybe(xs) == Sync(true)
    ensures NoDecisive(xs) ==> EveryMaybe(xs) == Combine(Pendings(xs))
    ensures forall k | FirstDecisive(xs, k) :: EveryMaybe(xs) == xs[k]
  {
    EveryFromMeaning(xs, []);
    assert [] + Pendings(xs) == Pendings(xs);
  }

  function NegateAll(xs: seq<Res>): (ys: seq<Res>)
    ensures |ys| == |xs|
    ensures forall i | 0 <= i < |xs| :: ys[i] == Negated(xs[i])
  {
    seq(|xs|, i requires 0 <= i < |xs| => Negated(xs[i]))
  }

  /** A result that decides a disjunction on the spot. */
  predicate SomeDecisive(x: Res) {
    x == Sync(true) || x.Threw?
  }

  predicate FirstSomeDecisive(xs: seq<Res>, k: int) {
    && 0 <= k < |xs|
    && SomeDecisive(xs[k])
    && forall j | 0 <= j < k :: !SomeDecisive(xs[j])
  }

  /** `maybeAsyncSome`, defined as the negation of `maybeAsyncEvery` over the
      negated items: the first synchronous true (or exception) decides, even
      after deferred items; with no deferred item the result is a synchronous
      false. */
  function SomeMaybe(xs: seq<Res>): Res {
    Negated(EveryMaybe(NegateAll(xs)))
  }

  lemma SomeMaybeMeaning(xs: seq<Res>)
    ensures |xs| == 0 ==> SomeMaybe(xs) == Sync(false)
    ensures forall k | FirstSomeDecisive(xs, k) :: SomeMaybe(xs) == xs[k]
    ensures (forall j | 0 <= j < |xs| :: xs[j].Sync? && !xs[j].b) ==> SomeMaybe(xs) == Sync(false)
  {
    var ys := NegateAll(xs);
    EveryMaybeMeaning(ys);
    assert forall k | FirstSomeDecisive(xs, k) :: FirstDecisive(ys, k);
    if forall j | 0 <= j < |xs| :: xs[j].Sync? && !xs[j].b {
      assert NoDecisive(ys);
      NoPendingsWithoutDeferred(ys);
    }
  }

  lemma {:induction false} NoPendingsWithoutDeferred(xs: seq<Res>)
    requires forall j | 0 <= j < |xs| :: !xs[j].Deferred?
    ensures Pendings(xs) == []
  {
    if |xs| > 0 {
      NoPendingsWithoutDeferred(xs[1..]);
    }
  }

  /** A future is collected exactly when it is the future of a deferred
      item. */
  lemma {:induction false} PendingsAreDeferred(xs: seq<Res>)
    ensures forall f :: f in Pendings(xs) <==> Deferred(f) in xs
  {
    if |xs| > 0 {
      PendingsAreDeferred(xs[1..]);
      var head := if xs[0].Deferred? then [xs[0].f] else [];
      assert Pendings(xs) == head + Pendings(xs[1..]);
      assert xs == [xs[0]] + xs[1..];
      forall f ensures f in Pendings(xs) <==> Deferred(f) in xs {
        assert f in Pendings(xs) <==> f in head || f in Pendings(xs[1..]);
        assert Deferred(f) in xs <==> xs[0] == Deferred(f) || Deferred(f) in xs[1..];
      }
    } else {
      assert Pendings(xs) == [];
    }
  }

  /** A deferred conjunction arises exactly when nothing decided the result and
      at least one item was deferred. */
  lemma EveryDeferredExactly(xs: seq<Res>)
    ensures EveryMaybe(xs).Deferred? <==> NoDecisive(xs) && exists i | 0 <= i < |xs| :: xs[i].Deferred?
  {
    EveryMaybeMeaning(xs);
    PendingsAreDeferred(xs);
    if !NoDecisive(xs) {
      var k := FirstDecisiveExists(xs);
      assert EveryMaybe(xs) == xs[k];
    } else if exists i | 0 <= i < |xs| :: xs[i].Deferred? {
      var i :| 0 <= i < |xs| && xs[i].Deferred?;
      assert xs[i] == Deferred(xs[i].f) && xs[i] in xs;
      assert xs[i].f in Pendings(xs);
      assert |Pendings(xs)| > 0;
    } else {
      NoPendingsWithoutDeferred(xs);
    }
  }

  lemma {:induction false} FirstDecisiveExists(xs: seq<Res>) returns (k: nat)
    requires !NoDecisive(xs)
    ensures FirstDecisive(xs, k)
  {
    if Decisive(xs[0]) {
      k := 0;
    } else {
      var k' := FirstDecisiveExists(xs[1..]);
      k := k' + 1;
    }
  }

  lemma {:induction false} FirstSomeDecisiveExists(xs: seq<Res>) returns (k: nat)
    requires exists j | 0 <= j < |xs| :: SomeDecisive(xs[j])
    ensures FirstSomeDecisive(xs, k)
  {
    if SomeDecisive(xs[0]) {
      k := 0;
    } else {
      var j :| 0 <= j < |xs| && SomeDecisive(xs[j]);
      assert SomeDecisive(xs[1..][j - 1]);
      var k' := FirstSomeDecisiveExists(xs[1..]);
      k := k' + 1;
    }
  }

  /** Short-circuit: once a synchronous false (or an exception) is met, the
      items after it do not matter, whatever they are. */
  lemma EveryShortCircuits(xs: seq<Res>, k: nat, later: seq<Res>)
    requires FirstDecisive(xs, k)
    ensures EveryMaybe(xs[..k + 1] + later) == xs[k]
    ensures EveryMaybe(xs) == xs[k]
  {
    assert FirstDecisive(xs[..k + 1] + later, k);
    EveryMaybeMeaning(xs[..k + 1] + later);
    EveryMaybeMeaning(xs);
  }

  /** Dually for `maybeAsyncSome`: a synchronous true decides, whatever follows. */
  lemma SomeShortCircuits(xs: seq<Res>, k: nat, later: seq<Res>)
    requires FirstSomeDecisive(xs, k)
    ensures SomeMaybe(xs[..k + 1] + later) == xs[k]
  {
    assert FirstSomeDecisive(xs[..k + 1] + later, k);
    SomeMaybeMeaning(xs[..k + 1] + later);
  }

  /** With synchronous items only, `maybeAsyncEvery` is a synchronous
      conjunction. */
  lemma EveryOfSync(xs: seq<Res>)
    requires forall j | 0 <= j < |xs| :: xs[j].Sync?
    ensures EveryMaybe(xs) == Sync(forall j | 0 <= j < |xs| :: xs[j].b)
  {
    EveryMaybeMeaning(xs);
    if NoDecisive(xs) {
      NoPendingsWithoutDeferred(xs);
    } else {
      var k := FirstDecisiveExists(xs);
    }
  }

  /** With synchronous items only, `maybeAsyncSome` is a synchronous
      disjunction. */
  lemma SomeOfSync(xs: seq<Res>)
    requires forall j | 0 <= j < |xs| :: xs[j].Sync?
    ensures SomeMaybe(xs) == Sync(exists j | 0 <= j < |xs| :: xs[j].b)
  {
    SomeMaybeMeaning(xs);
    if exists j | 0 <= j < |xs| :: SomeDecisive(xs[j]) {
      var k := FirstSomeDecisiveExists(xs);
    }
  }

  /** Whatever the deferred items settle to, `maybeAsyncEvery` settles to
      their conjunction. */
  lemma EverySettlesToConjunction(xs: seq<Res>, env: nat -> bool)
    requires forall j | 0 <= j < |xs| :: !xs[j].Threw?
    ensures !EveryMaybe(xs).Threw?
    ensures Eventually(EveryMaybe(xs), env) <==> forall j | 0 <= j < |xs| :: Eventually(xs[j], env)
  {
    EveryMaybeMeaning(xs);
    if NoDecisive(xs) {
      PendingsAreDeferred(xs);
      var ps := Pendings(xs);
      if forall j | 0 <= j < |xs| :: Eventually(xs[j], env) {
        forall p | 0 <= p < |ps| ensures Settle(ps[p], env) {
          assert ps[p] in ps;
          var i :| 0 <= i < |xs| && xs[i] == Deferred(ps[p]);
          assert Eventually(xs[i], env);
        }
      } else {
        var j :| 0 <= j < |xs| && !Eventually(xs[j], env);
        assert xs[j] == Deferred(xs[j].f) && xs[j] in xs;
        var p :| 0 <= p < |ps| && ps[p] == xs[j].f;
        assert !Settle(ps[p], env);
      }
    } else {
      var k := FirstDecisiveExists(xs);
    }
  }

  /** Whatever the deferred items settle to, `maybeAsyncSome` settles to
      their disjunction. */
  lemma SomeSettlesToDisjunction(xs: seq<Res>, env: nat -> bool)
    requires forall j | 0 <= j < |xs| :: !xs[j].Threw?
    ensures !SomeMaybe(xs).Threw?
    ensures Eventually(SomeMaybe(xs), env) <==> exists j | 0 <= j < |xs| :: Eventually(xs[j], env)
  {
    var ys := NegateAll(xs);
    EverySettlesToConjunction(ys, env);
    forall j | 0 <= j < |xs| ensures Eventually(ys[j], env) == !Eventually(xs[j], env) {
      ThenMaybeSettles(xs[j], Negate, env);
    }
    ThenMaybeSettles(EveryMaybe(ys), Negate, env);
  }

  /** Synchronous inputs give a synchronous answer. */
  lemma SyncInSyncOut(xs: seq<Res>)
    ensures (forall j | 0 <= j < |xs| :: xs[j].Sync?) ==> EveryMaybe(xs).Sync? && SomeMaybe(xs).Sync?
  {
    if forall j | 0 <= j < |xs| :: xs[j].Sync? {
      EveryOfSync(xs);
      SomeOfSync(xs);
    }
  }

  /** Duality, seen from the other side: `every(xs)` settles to the negation
      of `some` over the negated items. */
  lemma EveryIsDualOfSome(xs: seq<Res>, env: nat -> bool)
    requires forall j | 0 <= j < |xs| :: !xs[j].Threw?
    ensures !EveryMaybe(xs).Threw? && !SomeMaybe(NegateAll(xs)).Threw?
    ensures Eventually(EveryMaybe(xs), env) == !Eventually(SomeMaybe(NegateAll(xs)), env)
  {
    var ys := NegateAll(xs);
    forall j | 0 <= j < |xs| ensures !ys[j].Threw? && Eventually(ys[j], env) == !Eventually(xs[j], env) {
      ThenMaybeSettles(xs[j], Negate, env);
    }
    EverySettlesToConjunction(xs, env);
    SomeSettlesToDisjunction(ys, env);
  }
}

=== FILE: comparison.dfy ===
/** The value normaliser `comparable` and the three-way comparator `compare`
    that every ordering and equality operator goes through. */
module Comparison {
  import opened Values

  /** The result of `compare`: -1, 0, 1 or undefined. */
  datatype Ordering = Less | Equal | Greater | Unordered

  function Flip(o: Ordering): Ordering {
    match o
    case Less => Greater
    case Greater => Less
    case _ => o
  }

  /** JavaScript `<` on two strings: lexicographic order of their characters. */
  predicate StrLess(a: string, b: string)
    decreases |a|
  {
    if |a| == 0 then |b| > 0
    else if |b| == 0 then false
    else if a[0] != b[0] then a[0] < b[0]
    else StrLess(a[1..], b[1..])
  }

  lemma {:induction false} StrLessAsymmetric(a: string, b: string)
    ensures !(StrLess(a, b) && StrLess(b, a))
    decreases |a|
  {
    if |a| > 0 && |b| > 0 && a[0] == b[0] {
      StrLessAsymmetric(a[1..], b[1..]);
    }
  }

  lemma {:induction false} StrLessConnected(a: string, b: string)
    requires a != b
    ensures StrLess(a, b) || StrLess(b, a)
    decreases |a|
  {
    if |a| > 0 && |b| > 0 && a[0] == b[0] {
      assert a == [a[0]] + a[1..] && b == [b[0]] + b[1..];
      StrLessConnected(a[1..], b[1..]);
    }
  }

  lemma {:induction false} StrLessTransitive(a: string, b: string, c: string)
    requires StrLess(a, b) && StrLess(b, c)
    ensures StrLess(a, c)
    decreases |a|
  {
    if |a| > 0 && a[0] == b[0] && b[0] == c[0] {
      StrLessTransitive(a[1..], b[1..], c[1..]);
    }
  }

  /** The number `null` and a Date convert to when compared with `<` or `>`
      against another object. */
  function ObjectNumber(v: Value): Option<int> {
    match v
    case Null => Some(0)
    case Date(ms) => Some(ms)
    case _ => None
  }

  function NumberOrder(x: int, y: int): Ordering {
    if x > y then Greater else if x < y then Less else Unordered
  }

  /** `compare(a, b)`: 0 when `a === b`; otherwise 1 or -1 when both have the
      same `typeof` and `a > b` or `a < b` holds; otherwise undefined. Ordering
      an array or a plain object against another object goes through string
      conversion in JavaScript and is reported unordered here. */
  function Compare(a: Value, b: Value): (r: Ordering)
    ensures r == Equal <==> StrictEq(a, b)
    ensures (r == Less || r == Greater) ==> TypeOf(a) == TypeOf(b)
    ensures a.Num? && b.Num? ==> (r == Less <==> a.n < b.n) && (r == Greater <==> a.n > b.n)
    ensures a.Bool? && b.Bool? ==> (r == Less <==> !a.b && b.b) && (r == Greater <==> a.b && !b.b)
    ensures ObjectNumber(a).Some? && ObjectNumber(b).Some? && !(a.Null? && b.Null?) ==>
      (r == Less <==> ObjectNumber(a).value < ObjectNumber(b).value) &&
      (r == Greater <==> ObjectNumber(a).value > ObjectNumber(b).value)
    ensures (a.Arr? || a.Obj? || b.Arr? || b.Obj?) ==> r == Unordered
  {
    if StrictEq(a, b) then Equal
    else if a.Num? && b.Num? then NumberOrder(a.n, b.n)
    else if a.Str? && b.Str? then
      (if StrLess(b.s, a.s) then Greater else if StrLess(a.s, b.s) then Less else Unordered)
    else if a.Bool? && b.Bool? then (if a.b then Greater else Less)
    else
      match (ObjectNumber(a), ObjectNumber(b))
      case (Some(x), Some(y)) => NumberOrder(x, y)
      case _ => Unordered
  }

  /** On two strings, `compare` follows JavaScript's `<` on strings. */
  lemma CompareOnStrings(a: string, b: string)
    ensures Compare(Str(a), Str(b)) == Less <==> StrLess(a, b)
    ensures Compare(Str(a), Str(b)) == Greater <==> StrLess(b, a)
  {
    StrLessAsymmetric(a, b);
    StrLessAsymmetric(a, a);
  }

  /** compare(a, a) is 0 for every value that is not a reference. */
  lemma CompareReflexive(a: Value)
    requires Primitive(a)
    ensures Compare(a, a) == Equal
  {
  }

  /** compare is antisymmetric: swapping the operands flips the answer. */
  lemma {:induction false} CompareAntisymmetric(a: Value, b: Value)
    ensures Compare(a, b) == Flip(Compare(b, a))
  {
    if a.Str? && b.Str? && a != b {
      StrLessAsymmetric(a.s, b.s);
      StrLessConnected(a.s, b.s);
    }
  }

  /** Values of the same primitive type are always ordered one way or the other. */
  lemma {:induction false} CompareTotalOnPrimitives(a: Value, b: Value)
    requires (a.Num? && b.Num?) || (a.Str? && b.Str?) || (a.Bool? && b.Bool?)
    ensures Compare(a, b) != Unordered
  {
    if a.Str? && a != b {
      StrLessConnected(a.s, b.s);
    }
  }

  lemma {:induction false} CompareTransitive(a: Value, b: Value, c: Value)
    requires Compare(a, b) == Less && Compare(b, c) == Less
    ensures Compare(a, c) == Less
  {
    if a.Str? {
      StrLessTransitive(a.s, b.s, c.s);
      StrLessAsymmetric(a.s, c.s);
    }
  }

  /** A value `comparable` leaves unchanged: no Date at the top or inside arrays. */
  predicate Normalized(v: Value) {
    match v
    case Date(_) => false
    case Arr(es) => forall i | 0 <= i < |es| :: Normalized(es[i])
    case _ => true
  }

  /** `comparable(v)`: dates become their epoch milliseconds, arrays are
      normalised element by element, everything else is returned unchanged. */
  function Comparable(v: Value): (r: Value)
    ensures Normalized(r)
    ensures Normalized(v) ==> r == v
    ensures r.Arr? <==> v.Arr?
    ensures r.Obj? <==> v.Obj?
    ensures v.Arr? ==> |r.elems| == |v.elems| && forall i | 0 <= i < |v.elems| :: r.elems[i] == Comparable(v.elems[i])
    ensures v.Date? ==> r == Num(v.ms)
  {
    match v
    case Date(ms) => Num(ms)
    case Arr(es) => Arr(seq(|es|, i requires 0 <= i < |es| => Comparable(es[i])))
    case _ => v
  }

  /** Normalising twice is the same as normalising once. */
  lemma ComparableIdempotent(v: Value)
    ensures Comparable(Comparable(v)) == Comparable(v)
  {
  }

  /** Normalising keeps the structural size. */
  lemma {:induction false} ComparableSize(v: Value)
    ensures Size(Comparable(v)) == Size(v)
    decreases v
  {
    if v.Arr? {
      ComparableSeqSize(v.elems);
      assert Comparable(v).elems == seq(|v.elems|, i requires 0 <= i < |v.elems| => Comparable(v.elems[i]));
    }
  }

  lemma {:induction false} ComparableSeqSize(es: seq<Value>)
    ensures SeqSize(seq(|es|, i requires 0 <= i < |es| => Comparable(es[i]))) == SeqSize(es)
    decreases es
  {
    if |es| > 0 {
      var cs := seq(|es|, i requires 0 <= i < |es| => Comparable(es[i]));
      ComparableSize(es[0]);
      ComparableSeqSize(es[1..]);
      assert cs[1..] == seq(|es[1..]|, i requires 0 <= i < |es[1..]| => Comparable(es[1..][i]));
    }
  }
}

=== FILE: compiler.dfy ===
/** The query compiler (`parse` with its `prepare` table) and the root entry
    point `sift(query, options)`. */
module Compiler {
  import opened Values
  import opened Errors
  import opened Comparison
  import opened MaybeAsync
  import opened Equality
  import opened Paths
  import opened TypeAliases
  import opened Validators

  /** The caller's options: the names of the caller-supplied operators (the
      own properties of `options.expressions` whose value is truthy) and the
      optional `select` projection. */
  datatype Options = Options(custom: set<string>, select: Option<Value -> Value>)

  /** `createRootValidator(query, undefined)`, as `$in` compiles its entries. */
  const NoOptions: Options := Options({}, None)

  /** The keys of the built-in `expressions` table. */
  const BuiltIns: set<string> := {
    "$eq", "$ne", "$gt", "$gte", "$lt", "$lte", "$mod", "$in", "$nin", "$not",
    "$type", "$all", "$size", "$or", "$nor", "$and", "$regex", "$where",
    "$elemMatch", "$exists"}

  /** A key `parse` rejects: `$`-prefixed and naming no operator. */
  predicate UnknownOperator(key: string, opts: Options) {
    && |key| > 0 && key[0] == '$'
    && key != "$options" && key !in BuiltIns && key !in opts.custom
  }

  /** `key` is a key of some object inside `q`, reached through objects and
      arrays. */
  predicate KeyOccurs(q: Value, key: string)
    decreases q
  {
    match q
    case Obj(fs) => exists i | 0 <= i < |fs| :: fs[i].key == key || KeyOccurs(fs[i].val, key)
    case Arr(es) => exists i | 0 <= i < |es| :: KeyOccurs(es[i], key)
    case _ => false
  }

  /** `parseSub(query)`: normalise the query; anything but a plain object
      (arrays, primitives, and objects with an own `constructor` key) is
      compiled as `{$eq: query}`; an exact object becomes deep equality;
      otherwise each key yields one validator, and several are AND-ed in key
      order. An unknown-operator error names a key that really occurs in the
      query and that no operator claims. */
  function Compile(query: Value, opts: Options): (r: Result<Validator>)
    ensures !query.Obj? ==> r.Ok?
    ensures query.Obj? && !Vanilla(query) ==> r == Ok(Any(EqTo(PrepareEq(query))))
    ensures Vanilla(query) && IsExactObject(query) ==> r == Ok(Exact(query))
    ensures r.Err? && r.error.UnknownOperation? ==>
      UnknownOperator(r.error.key, opts) && KeyOccurs(query, r.error.key)
    decreases Size(query), 0
  {
    var cq := Comparable(query);
    if !Vanilla(cq) then Ok(Any(EqTo(PrepareEq(cq))))
    else if IsExactObject(cq) then Ok(Exact(cq))
    else
      var vs :- CompileKeys(cq.fields, cq.fields, opts);
      Ok(if |vs| == 1 then vs[0] else AllOf(vs))
  }

  /** The keys a query object is compiled from: all but `$options`. */
  function OperandKeys(fs: seq<Field>): (ks: seq<string>)
    ensures forall i | 0 <= i < |ks| :: ks[i] != "$options" && ks[i] in Keys(fs)
    ensures forall i | 0 <= i < |fs| && fs[i].key != "$options" :: fs[i].key in ks
  {
    if |fs| == 0 then []
    else
      var rest := OperandKeys(fs[1..]);
      assert forall i | 1 <= i < |fs| :: fs[i] == fs[1..][i - 1];
      assert forall i | 0 <= i < |rest| :: rest[i] in Keys(fs[1..]) ==> rest[i] in Keys(fs);
      if fs[0].key == "$options" then rest else [fs[0].key] + rest
  }

  /** The fields a query object is compiled from, in order: all but
      `$options`. */
  function Operands(fs: seq<Field>): (r: seq<Field>)
    ensures |r| == |OperandKeys(fs)|
    ensures forall i | 0 <= i < |r| :: r[i].key != "$options"
  {
    if |fs| == 0 then []
    else if fs[0].key == "$options" then Operands(fs[1..])
    else [fs[0]] + Operands(fs[1..])
  }

  /** The loop of `parse` over the keys of `whole` from `rest` on, in order;
      the first failing key stops it. */
  function CompileKeys(whole: seq<Field>, rest: seq<Field>, opts: Options): (r: Result<seq<Validator>>)
    ensures r.Ok? ==> |r.value| == |OperandKeys(rest)|
    ensures r.Err? && r.error.UnknownOperation? ==>
      UnknownOperator(r.error.key, opts) &&
      exists i | 0 <= i < |rest| :: rest[i].key == r.error.key || KeyOccurs(rest[i].val, r.error.key)
    decreases FieldsSize(rest), 3
  {
    if |rest| == 0 then Ok([])
    else if rest[0].key == "$options" then
      var r := CompileKeys(whole, rest[1..], opts);
      assert forall i | 1 <= i < |rest| :: rest[i] == rest[1..][i - 1];
      r
    else
      var v :- CompileKey(whole, rest[0].key, rest[0].val, opts);
      var vs :- CompileKeys(whole, rest[1..], opts);
      assert forall i | 1 <= i < |rest| :: rest[i] == rest[1..][i - 1];
      Ok([v] + vs)
  }

  /** One key of a query object: a built-in operator, else a caller-supplied
      one, else an error for an unknown `$` key, else a field path. */
  function CompileKey(whole: seq<Field>, key: string, a: Value, opts: Options): (r: Result<Validator>)
    requires key != "$options"
    ensures key in BuiltIns && r.Ok? ==> !r.value.Custom?
    ensures key !in BuiltIns && key in opts.custom ==> r == Ok(Custom(key, Comparable(a)))
    ensures UnknownOperator(key, opts) ==> r == Err(UnknownOperation(key))
    ensures r.Err? && r.error.UnknownOperation? ==>
      UnknownOperator(r.error.key, opts) && (r.error.key == key || KeyOccurs(a, r.error.key))
    decreases Size(a), 2
  {
    if key in BuiltIns then CompileBuiltIn(whole, key, a, opts)
    else if key in opts.custom then Ok(Custom(key, Comparable(a)))
    else if |key| > 0 && key[0] == '$' then Err(UnknownOperation(key))
    else
      var inner :- Compile(a, opts);
      Ok(Nested(Split(key), inner, a))
  }

  /** Each element of an array parameter compiled as its own query. */
  function CompileList(es: seq<Value>, opts: Options): (r: Result<seq<Validator>>)
    ensures r.Ok? ==> |r.value| == |es|
    ensures r.Err? && r.error.UnknownOperation? ==>
      UnknownOperator(r.error.key, opts) && exists i | 0 <= i < |es| :: KeyOccurs(es[i], r.error.key)
    decreases SeqSize(es), 1
  {
    if |es| == 0 then Ok([])
    else
      var v :- Compile(es[0], opts);
      var vs :- CompileList(es[1..], opts);
      assert forall i | 1 <= i < |es| :: es[i] == es[1..][i - 1];
      Ok([v] + vs)
  }

  /** The entries of an `$in` parameter, each compiled as a root query with no
      options; a failure is kept and surfaces only if evaluation reaches it. */
  function CompileEntries(es: seq<Value>): (r: seq<Result<Validator>>)
    ensures |r| == |es|
    decreases SeqSize(es), 1
  {
    if |es| == 0 then []
    else [Compile(es[0], NoOptions)] + CompileEntries(es[1..])
  }

  /** Entry `i` of an `$in` parameter is compiled exactly as the root query
      `a[i]` would be. */
  lemma {:induction false} EntriesCompiledAlone(es: seq<Value>, i: nat)
    requires i < |es|
    ensures CompileEntries(es)[i] == Compile(es[i], NoOptions)
    decreases i
  {
    if i > 0 {
      EntriesCompiledAlone(es[1..], i - 1);
    }
  }

  /** A built-in operator with its parameter prepared (`prepare[key]`) and
      normalised (`comparable`). */
  function CompileBuiltIn(whole: seq<Field>, key: string, a: Value, opts: Options): (r: Result<Validator>)
    requires key in BuiltIns
    ensures r.Ok? ==> !r.value.Custom?
    ensures r.Err? && r.error.UnknownOperation? ==>
      UnknownOperator(r.error.key, opts) && KeyOccurs(a, r.error.key)
    decreases Size(a), 1
  {
    match key
    case "$eq" => Ok(Any(EqTo(PrepareEq(a))))
    case "$ne" => Ok(NotEq(PrepareEq(a)))
    case "$gt" => Ok(Any(Above(Comparable(a))))
    case "$gte" => Ok(Any(AtLeast(Comparable(a))))
    case "$lt" => Ok(Any(Below(Comparable(a))))
    case "$lte" => Ok(Any(AtMost(Comparable(a))))
    case "$mod" => Ok(Any(ModOf(Comparable(a))))
    case "$in" => Ok(InOf(a))
    case "$nin" => Ok(Not(InOf(a)))
    case "$not" =>
      var inner :- Compile(a, opts);
      Ok(Not(inner))
    case "$type" =>
      var spec :- PrepareType(a);
      Ok(TypeIs(spec))
    case "$size" => Ok(SizeIs(Comparable(a)))
    case "$regex" => Ok(Any(Matches(a, Lookup(whole, "$options"))))
    case "$where" => Ok(Where(a))
    case "$elemMatch" =>
      var inner :- Compile(a, opts);
      Ok(ElemMatch(inner))
    case "$exists" => Ok(Exists(Truthy(a)))
    case _ =>
      // `$and`, `$all`, `$or` and `$nor` map `parseSub` over an array
      if !a.Arr? then Err(TypeError)
      else
        var vs :- CompileList(a.elems, opts);
        Ok(if key == "$or" then AnyOf(vs) else if key == "$nor" then NoneOf(vs) else AllOf(vs))
  }

  /** `$in` with its normalised parameter; the entries of an array parameter
      are compiled one by one. */
  function InOf(a: Value): (r: Validator)
    ensures r.In? && r.params == Comparable(a)
    ensures a.Arr? ==> |r.entries| == |a.elems|
    decreases Size(a), 0
  {
    var ca := Comparable(a);
    ComparableSize(a);
    In(ca, if ca.Arr? then CompileEntries(ca.elems) else [])
  }

  /** Compiling reads only the names of the caller-supplied operators from
      the options, never the `select` projection. */
  lemma {:induction false} CompileIgnoresSelect(query: Value, o1: Options, o2: Options)
    requires o1.custom == o2.custom
    ensures Compile(query, o1) == Compile(query, o2)
    decreases Size(query), 0
  {
    var cq := Comparable(query);
    if cq.Obj? && !IsExactObject(cq) {
      KeysIgnoreSelect(cq.fields, cq.fields, o1, o2);
    }
  }

  lemma {:induction false} KeysIgnoreSelect(whole: seq<Field>, rest: seq<Field>, o1: Options, o2: Options)
    requires o1.custom == o2.custom
    ensures CompileKeys(whole, rest, o1) == CompileKeys(whole, rest, o2)
    decreases FieldsSize(rest), 3
  {
    if |rest| > 0 {
      if rest[0].key != "$options" {
        KeyIgnoresSelect(whole, rest[0].key, rest[0].val, o1, o2);
      }
      KeysIgnoreSelect(whole, rest[1..], o1, o2);
    }
  }

  lemma {:induction false} KeyIgnoresSelect(whole: seq<Field>, key: string, a: Value, o1: Options, o2: Options)
    requires key != "$options" && o1.custom == o2.custom
    ensures CompileKey(whole, key, a, o1) == CompileKey(whole, key, a, o2)
    decreases Size(a), 2
  {
    if key in BuiltIns {
      BuiltInIgnoresSelect(whole, key, a, o1, o2);
    } else if key !in o1.custom && !(|key| > 0 && key[0] == '$') {
      CompileIgnoresSelect(a, o1, o2);
    }
  }

  lemma {:induction false} BuiltInIgnoresSelect(whole: seq<Field>, key: string, a: Value, o1: Options, o2: Options)
    requires key in BuiltIns && o1.custom == o2.custom
    ensures CompileBuiltIn(whole, key, a, o1) == CompileBuiltIn(whole, key, a, o2)
    decreases Size(a), 1
  {
    if key == "$not" || key == "$elemMatch" {
      CompileIgnoresSelect(a, o1, o2);
    } else if key in {"$and", "$all", "$or", "$nor"} {
      ListKeyIgnoresSelect(whole, key, a, o1, o2);
    }
  }

  lemma {:induction false} ListKeyIgnoresSelect(whole: seq<Field>, key: string, a: Value, o1: Options, o2: Options)
    requires key in {"$and", "$all", "$or", "$nor"} && o1.custom == o2.custom
    ensures CompileBuiltIn(whole, key, a, o1) == CompileBuiltIn(whole, key, a, o2)
    decreases Size(a), 0
  {
    ConnectiveUnfolds(whole, key, a, o1);
    ConnectiveUnfolds(whole, key, a, o2);
    if a.Arr? {
      ListIgnoresSelect(a.elems, o1, o2);
    }
  }

  /** The `$and`, `$all`, `$or` and `$nor` case of `CompileBuiltIn`. */
  lemma ConnectiveUnfolds(whole: seq<Field>, key: string, a: Value, opts: Options)
    requires key in {"$and", "$all", "$or", "$nor"}
    ensures !a.Arr? ==> CompileBuiltIn(whole, key, a, opts) == Err(TypeError)
    ensures a.Arr? && CompileList(a.elems, opts).Err? ==>
      CompileBuiltIn(whole, key, a, opts) == Err(CompileList(a.elems, opts).error)
    ensures a.Arr? && CompileList(a.elems, opts).Ok? ==>
      var vs := CompileList(a.elems, opts).value;
      CompileBuiltIn(whole, key, a, opts) == Ok(if key == "$or" then AnyOf(vs) else if key == "$nor" then NoneOf(vs) else AllOf(vs))
  {
  }

  lemma {:induction false} ListIgnoresSelect(es: seq<Value>, o1: Options, o2: Options)
    requires o1.custom == o2.custom
    ensures CompileList(es, o1) == CompileList(es, o2)
    decreases SeqSize(es), 1
  {
    if |es| > 0 {
      CompileIgnoresSelect(es[0], o1, o2);
      ListIgnoresSelect(es[1..], o1, o2);
    }
  }

  /** The value a root validator tests: `options.select(b)` when a projection
      is given. */
  function Project(opts: Options, b: Value): Value {
    if opts.select.Some? then opts.select.value(b) else b
  }

  /** `sift(query, options)(b, k, o)`: compile once, then test the projected
      value. A compile error is raised by `sift` itself, before any value is
      tested. */
  function Sift(query: Value, opts: Options, h: Host, b: Value, k: Key, o: Value): (r: Result<Res>)
    ensures r.Err? <==> Compile(query, opts).Err?
    ensures r.Ok? ==> r.value == Eval(Compile(query, opts).value, Project(opts, b), k, o, h)
  {
    var v :- Compile(query, opts);
    Ok(Eval(v, Project(opts, b), k, o, h))
  }

  /** `select` only changes the value tested: sifting with a projection `f`
      is sifting `f(b)` without one. */
  lemma SiftProjects(query: Value, custom: set<string>, f: Value -> Value, h: Host, b: Value, k: Key, o: Value)
    ensures Sift(query, Options(custom, Some(f)), h, b, k, o) == Sift(query, Options(custom, None), h, f(b), k, o)
  {
    CompileIgnoresSelect(query, Options(custom, Some(f)), Options(custom, None));
  }
}

=== FILE: equality.dfy ===
/** Deep structural equality (`isEqual`) and the test that decides whether a
    query object is matched literally (`isExactObject`). */
module Equality {
  import opened Values

  /** `Object.prototype.toString.call(v)`. */
  function Tag(v: Value): string {
    match v
    case Undefined => "[object Undefined]"
    case Null => "[object Null]"
    case Bool(_) => "[object Boolean]"
    case Num(_) => "[object Number]"
    case Str(_) => "[object String]"
    case Date(_) => "[object Date]"
    case Arr(_) => "[object Array]"
    case Obj(_) => "[object Object]"
  }

  /** Deleting each key of `ks` in turn from the set `remaining` succeeds:
      the key-set check of `isEqual`. */
  predicate KeysDeletable(remaining: set<string>, ks: seq<string>)
    decreases |ks|
  {
    |ks| == 0 || (ks[0] in remaining && KeysDeletable(remaining - {ks[0]}, ks[1..]))
  }

  /** `isEqual(a, b)`: same `toString` tag; plain objects with the same number
      of keys, every key of `b` a key of `a`, and equal values under every key
      of `a`; arrays of the same length equal position by position; anything
      else by `===`. */
  predicate IsEqual(a: Value, b: Value)
    decreases a
  {
    if Tag(a) != Tag(b) then false
    else match a
      case Obj(fa) =>
        && |fa| == |b.fields|
        && KeysDeletable(KeySet(fa), Keys(b.fields))
        && forall i | 0 <= i < |fa| :: IsEqual(fa[i].val, Lookup(b.fields, fa[i].key))
      case Arr(ea) =>
        && |ea| == |b.elems|
        && forall i | 0 <= i < |ea| :: IsEqual(ea[i], b.elems[i])
      case _ => StrictEq(a, b)
  }

  predicate DistinctStrings(ks: seq<string>) {
    forall i, j | 0 <= i < j < |ks| :: ks[i] != ks[j]
  }

  lemma {:induction false} KeysDeletableMeaning(remaining: set<string>, ks: seq<string>)
    requires DistinctStrings(ks)
    ensures KeysDeletable(remaining, ks) <==> forall i | 0 <= i < |ks| :: ks[i] in remaining
    decreases |ks|
  {
    if |ks| > 0 {
      KeysDeletableMeaning(remaining - {ks[0]}, ks[1..]);
      assert forall j | 0 <= j < |ks[1..]| :: ks[1..][j] == ks[j + 1] && ks[j + 1] != ks[0];
    }
  }

  lemma {:induction false} KeySetSize(fs: seq<Field>)
    requires DistinctKeys(fs)
    ensures |KeySet(fs)| == |fs|
  {
    if |fs| > 0 {
      KeySetSize(fs[1..]);
      assert KeySet(fs) == {fs[0].key} + KeySet(fs[1..]) by {
        assert forall i | 1 <= i < |fs| :: fs[i].key == fs[1..][i - 1].key;
      }
      assert fs[0].key !in KeySet(fs[1..]);
    }
  }

  lemma SubsetOfSameSize(a: set<string>, b: set<string>)
    requires a <= b && |a| == |b|
    ensures a == b
  {
    assert |b - a| == |b| - |a|;
  }

  /** The key check of `isEqual` on objects with distinct keys: equal counts
      and every key of `b` deletable from `a`'s key set mean equal key sets. */
  lemma KeyCheckMeaning(fa: seq<Field>, fb: seq<Field>)
    requires DistinctKeys(fa) && DistinctKeys(fb)
    ensures (|fa| == |fb| && KeysDeletable(KeySet(fa), Keys(fb))) <==> KeySet(fa) == KeySet(fb)
  {
    KeysDeletableMeaning(KeySet(fa), Keys(fb));
    KeySetSize(fa);
    KeySetSize(fb);
    assert forall i | 0 <= i < |fb| :: Keys(fb)[i] in KeySet(fb);
    if |fa| == |fb| && KeysDeletable(KeySet(fa), Keys(fb)) {
      assert KeySet(fb) <= KeySet(fa);
      SubsetOfSameSize(KeySet(fb), KeySet(fa));
    }
  }

  /** The value check of `isEqual`: equal values under every key of `a`, read
      by position in `a` or by key. */
  lemma ValueCheckMeaning(fa: seq<Field>, fb: seq<Field>)
    requires DistinctKeys(fa)
    ensures (forall i | 0 <= i < |fa| :: IsEqual(fa[i].val, Lookup(fb, fa[i].key))) <==>
      forall k | k in KeySet(fa) :: IsEqual(Lookup(fa, k), Lookup(fb, k))
  {
    forall i | 0 <= i < |fa| ensures Lookup(fa, fa[i].key) == fa[i].val {
      LookupDistinct(fa, i);
    }
  }

  /** On objects with distinct keys, `isEqual` means: the same set of keys, and
      equal values under each of them, in whatever order the keys come. */
  lemma ObjectsEqualExactly(fa: seq<Field>, fb: seq<Field>)
    requires DistinctKeys(fa) && DistinctKeys(fb)
    ensures IsEqual(Obj(fa), Obj(fb)) <==>
      && KeySet(fa) == KeySet(fb)
      && forall k | k in KeySet(fa) :: IsEqual(Lookup(fa, k), Lookup(fb, k))
  {
    KeyCheckMeaning(fa, fb);
    ValueCheckMeaning(fa, fb);
    IsEqualObjects(fa, fb);
  }

  lemma IsEqualObjects(fa: seq<Field>, fb: seq<Field>)
    ensures IsEqual(Obj(fa), Obj(fb)) <==>
      && |fa| == |fb| && KeysDeletable(KeySet(fa), Keys(fb))
      && forall i | 0 <= i < |fa| :: IsEqual(fa[i].val, Lookup(fb, fa[i].key))
  {
  }

  /** A field that one object has and the other lacks makes them unequal. */
  lemma ExtraFieldRejected(fa: seq<Field>, fb: seq<Field>, k: string)
    requires DistinctKeys(fa) && DistinctKeys(fb)
    requires k in KeySet(fb) && k !in KeySet(fa)
    ensures !IsEqual(Obj(fa), Obj(fb)) && !IsEqual(Obj(fb), Obj(fa))
  {
    ObjectsEqualExactly(fa, fb);
    ObjectsEqualExactly(fb, fa);
  }

  /** No Date anywhere inside: Dates are references, so `===` never equates two. */
  predicate DateFree(v: Value) {
    match v
    case Date(_) => false
    case Arr(es) => forall i | 0 <= i < |es| :: DateFree(es[i])
    case Obj(fs) => forall i | 0 <= i < |fs| :: DateFree(fs[i].val)
    case _ => true
  }

  /** Every well-formed Date-free value is deep-equal to itself. */
  lemma {:induction false} IsEqualReflexive(a: Value)
    requires WellFormed(a) && DateFree(a)
    ensures IsEqual(a, a)
    decreases a
  {
    match a
    case Obj(fa) =>
      KeysDeletableMeaning(KeySet(fa), Keys(fa));
      forall i | 0 <= i < |fa| ensures IsEqual(fa[i].val, Lookup(fa, fa[i].key)) {
        LookupDistinct(fa, i);
        IsEqualReflexive(fa[i].val);
      }
    case Arr(ea) =>
      forall i | 0 <= i < |ea| ensures IsEqual(ea[i], ea[i]) {
        IsEqualReflexive(ea[i]);
      }
    case _ =>
  }

  /** Deep equality does not depend on the order of its arguments. */
  lemma {:induction false} IsEqualSymmetric(a: Value, b: Value)
    requires WellFormed(a) && WellFormed(b)
    requires IsEqual(a, b)
    ensures IsEqual(b, a)
    decreases a
  {
    match a
    case Obj(fa) =>
      var fb := b.fields;
      ObjectsEqualExactly(fa, fb);
      ObjectsEqualExactly(fb, fa);
      forall k | k in KeySet(fb) ensures IsEqual(Lookup(fb, k), Lookup(fa, k)) {
        var i :| 0 <= i < |fa| && fa[i].key == k;
        var j :| 0 <= j < |fb| && fb[j].key == k;
        LookupDistinct(fa, i);
        LookupDistinct(fb, j);
        IsEqualSymmetric(fa[i].val, fb[j].val);
      }
    case Arr(ea) =>
      forall i | 0 <= i < |ea| ensures IsEqual(b.elems[i], ea[i]) {
        IsEqualSymmetric(ea[i], b.elems[i]);
      }
    case _ =>
  }

  /** The keys `getAllKeys` collects: each key of a plain object followed by
      the keys below it, depth first. Arrays are not descended into. */
  function AllKeys(v: Value): seq<string>
    decreases v
  {
    match v
    case Obj(fs) => FieldKeys(fs)
    case _ => []
  }

  function FieldKeys(fs: seq<Field>): seq<string>
    decreases fs
  {
    if |fs| == 0 then [] else [fs[0].key] + AllKeys(fs[0].val) + FieldKeys(fs[1..])
  }

  /** A key that marks a query rather than a literal: it contains `$` or `.`. */
  predicate Special(key: string) {
    '$' in key || '.' in key
  }

  /** `isExactObject`: no collected key contains `$` or `.`. */
  predicate IsExactObject(v: Value) {
    forall i | 0 <= i < |AllKeys(v)| :: !Special(AllKeys(v)[i])
  }

  /** The same condition stated on the structure: every key of every plain
      object reachable through plain objects is free of `$` and `.`. */
  predicate PlainKeys(v: Value)
    decreases v
  {
    match v
    case Obj(fs) => forall i | 0 <= i < |fs| :: !Special(fs[i].key) && PlainKeys(fs[i].val)
    case _ => true
  }

  lemma {:induction false} ExactObjectIsPlainKeys(v: Value)
    ensures IsExactObject(v) <==> PlainKeys(v)
    decreases v
  {
    if v.Obj? {
      assert AllKeys(v) == FieldKeys(v.fields);
      FieldKeysArePlain(v.fields);
    }
  }

  lemma {:induction false} FieldKeysArePlain(fs: seq<Field>)
    ensures (forall i | 0 <= i < |FieldKeys(fs)| :: !Special(FieldKeys(fs)[i])) <==>
            (forall i | 0 <= i < |fs| :: !Special(fs[i].key) && PlainKeys(fs[i].val))
    decreases fs
  {
    if |fs| > 0 {
      var head := [fs[0].key] + AllKeys(fs[0].val);
      assert FieldKeys(fs) == head + FieldKeys(fs[1..]);
      NoSpecialConcat(head, FieldKeys(fs[1..]));
      NoSpecialConcat([fs[0].key], AllKeys(fs[0].val));
      ExactObjectIsPlainKeys(fs[0].val);
      FieldKeysArePlain(fs[1..]);
      assert forall i | 0 <= i < |fs[1..]| :: fs[1..][i] == fs[i + 1];
      assert (forall i | 0 <= i < |fs| :: !Special(fs[i].key) && PlainKeys(fs[i].val)) <==>
        (!Special(fs[0].key) && PlainKeys(fs[0].val)) &&
        (forall i | 0 <= i < |fs[1..]| :: !Special(fs[1..][i].key) && PlainKeys(fs[1..][i].val));
      assert [fs[0].key][0] == fs[0].key;
    } else {
      assert FieldKeys(fs) == [];
    }
  }

  lemma NoSpecialConcat(a: seq<string>, b: seq<string>)
    ensures (forall i | 0 <= i < |a + b| :: !Special((a + b)[i])) <==>
      (forall i | 0 <= i < |a| :: !Special(a[i])) && (forall i | 0 <= i < |b| :: !Special(b[i]))
  {
    assert forall i | 0 <= i < |a| :: (a + b)[i] == a[i];
    assert forall i | 0 <= i < |b| :: (a + b)[|a| + i] == b[i];
    if (forall i | 0 <= i < |a| :: !Special(a[i])) && (forall i | 0 <= i < |b| :: !Special(b[i])) {
      forall i | 0 <= i < |a + b| ensures !Special((a + b)[i]) {
        if i >= |a| {
          assert (a + b)[i] == b[i - |a|];
        }
      }
    }
  }

}

=== FILE: errors.dfy ===
/** The errors the query engine raises, and a failure-compatible result type
    for operations that may raise them. */
module Errors {
  import opened Values

  datatype Error =
      /** A `$`-prefixed query key that names no operator (raised while compiling). */
    | UnknownOperation(key: string)
      /** A `$type` argument the type map does not know (raised while compiling). */
    | UnknownTypeAlias(alias: Value)
      /** A TypeError raised by the host: a property test on null or undefined,
          `instanceof` with a right-hand side that is not a constructor, `.map`
          or iteration over a value that is not an array. */
    | TypeError
      /** The `$type` operator reaching a type name its switch does not handle. */
    | InternalUnknownType(name: string)

  /** The text of a template literal `${v}` for the aliases the engine reports. */
  function AliasText(v: Value): string {
    match v
    case Str(s) => s
    case Num(n) => if n < 0 then "-" + DecimalString(-n) else DecimalString(n)
    case _ => "?"
  }

  function Message(e: Error): string {
    match e
    case UnknownOperation(k) => "Unknown operation " + k
    case UnknownTypeAlias(a) => "unknown type alias: " + AliasText(a)
    case TypeError => "TypeError"
    case InternalUnknownType(n) => "internal error: unknown type alias: " + n
  }

  datatype Result<+T> = Ok(value: T) | Err(error: Error) {
    predicate IsFailure() {
      Err?
    }

    function PropagateFailure<U>(): Result<U>
      requires Err?
    {
      Err(error)
    }

    function Extract(): T
      requires Ok?
    {
      value
    }
  }
}

=== FILE: operators.dfy ===
/** What the compiled operators answer, stated against the comparator, the
    equality tests and the property access they are defined by. */
module Operators {
  import opened Values
  import opened Errors
  import opened Comparison
  import opened MaybeAsync
  import opened Equality
  import opened Paths
  import opened TypeAliases
  import opened Validators
  import opened Compiler
  import opened Properties

  /** The orderings `$gt`, `$gte`, `$lt` and `$lte` accept from `compare`. */
  predicate OrderAccepts(op: string, c: Ordering) {
    if op == "$gt" then c == Greater
    else if op == "$gte" then c == Greater || c == Equal
    else if op == "$lt" then c == Less
    else c == Less || c == Equal
  }

  /** The element test `prepare` and `expressions` build for a comparison
      operator and its normalised parameter. */
  function OrderTest(op: string, c: Value): (t: ElemTest)
    ensures !t.ModOf?
  {
    if op == "$gt" then Above(c)
    else if op == "$gte" then AtLeast(c)
    else if op == "$lt" then Below(c)
    else AtMost(c)
  }

  lemma OrderTestMeaning(op: string, c: Value, x: Value, h: Host)
    requires op in {"$gt", "$gte", "$lt", "$lte"}
    ensures TestOne(OrderTest(op, c), x, h) == Sync(OrderAccepts(op, Compare(Comparable(x), c)))
  {
  }

  /** A comparison operator tests the value itself against the normalised
      parameter, or, on a non-empty array, each element, matching when one
      does. */
  lemma ComparisonOperator(op: string, a: Value, b: Value, opts: Options, h: Host, k: Key, o: Value)
    requires op in {"$gt", "$gte", "$lt", "$lte"}
    ensures Compile(Q(op, a), opts) == Ok(Any(OrderTest(op, Comparable(a))))
    ensures b.Arr? && |b.elems| > 0 ==>
      Eval(Any(OrderTest(op, Comparable(a))), b, k, o, h) ==
        Sync(exists i | 0 <= i < |b.elems| :: OrderAccepts(op, Compare(Comparable(b.elems[i]), Comparable(a))))
    ensures !(b.Arr? && |b.elems| > 0) ==>
      Eval(Any(OrderTest(op, Comparable(a))), b, k, o, h) == Sync(OrderAccepts(op, Compare(Comparable(b), Comparable(a))))
  {
    ComparisonCompiles(op, a, opts);
    var t := OrderTest(op, Comparable(a));
    EvalAny(t, b, k, o, h);
    if b.Arr? && |b.elems| > 0 {
      forall i | 0 <= i < |b.elems|
        ensures (TestOne(t, b.elems[i], h) == Sync(true)) == OrderAccepts(op, Compare(Comparable(b.elems[i]), Comparable(a)))
      {
        OrderTestMeaning(op, Comparable(a), b.elems[i], h);
      }
    } else {
      OrderTestMeaning(op, Comparable(a), b, h);
    }
  }

  lemma ComparisonCompiles(op: string, a: Value, opts: Options)
    requires op in {"$gt", "$gte", "$lt", "$lte"}
    ensures Compile(Q(op, a), opts) == Ok(Any(OrderTest(op, Comparable(a))))
  {
    SingleOperator(op, a, opts);
  }

  /** A comparison between values of different `typeof` is never accepted. */
  lemma OrderingNeedsSameType(op: string, x: Value, y: Value)
    requires TypeOf(x) != TypeOf(y)
    ensures !OrderAccepts(op, Compare(x, y))
  {
  }

  /** So `{$lt: null}` matches no number, nor any array of numbers. */
  lemma LessThanNullMatchesNoNumber(b: Value, opts: Options, h: Host, k: Key, o: Value)
    requires b.Num? || (b.Arr? && forall i | 0 <= i < |b.elems| :: b.elems[i].Num?)
    ensures Compile(Q("$lt", Null), opts).Ok?
    ensures Eval(Compile(Q("$lt", Null), opts).value, b, k, o, h) == Sync(false)
  {
    ComparisonOperator("$lt", Null, b, opts, h, k, o);
    assert Comparable(Null) == Null;
    if b.Arr? {
      forall i | 0 <= i < |b.elems| ensures !OrderAccepts("$lt", Compare(Comparable(b.elems[i]), Null)) {
        NumberNotBelowNull(b.elems[i]);
      }
    } else {
      NumberNotBelowNull(b);
    }
  }

  lemma NumberNotBelowNull(x: Value)
    requires x.Num?
    ensures !OrderAccepts("$lt", Compare(Comparable(x), Null))
  {
    OrderingNeedsSameType("$lt", Comparable(x), Null);
  }

  /** `{$gt: 5}` matches exactly the numbers above 5, and an array when one
      of its elements is. */
  lemma GreaterThanFive(n: int, es: seq<Value>, opts: Options, h: Host, k: Key, o: Value)
    requires forall i | 0 <= i < |es| :: es[i].Num?
    ensures Compile(Q("$gt", Num(5)), opts) == Ok(Any(Above(Num(5))))
    ensures Eval(Any(Above(Num(5))), Num(n), k, o, h) == Sync(n > 5)
    ensures |es| > 0 ==> Eval(Any(Above(Num(5))), Arr(es), k, o, h) == Sync(exists i | 0 <= i < |es| :: es[i].n > 5)
  {
    ComparisonOperator("$gt", Num(5), Num(n), opts, h, k, o);
    ComparisonOperator("$gt", Num(5), Arr(es), opts, h, k, o);
  }

  /** `$eq` tests the value itself, or any element of a non-empty array. */
  lemma EqOperator(a: Value, b: Value, opts: Options, h: Host, k: Key, o: Value)
    ensures Compile(Q("$eq", a), opts) == Ok(Any(EqTo(PrepareEq(a))))
    ensures b.Arr? && |b.elems| > 0 ==>
      Eval(Any(EqTo(PrepareEq(a))), b, k, o, h) == Sync(exists i | 0 <= i < |b.elems| :: EqHolds(PrepareEq(a), b.elems[i]))
    ensures !(b.Arr? && |b.elems| > 0) ==> Eval(Any(EqTo(PrepareEq(a))), b, k, o, h) == Sync(EqHolds(PrepareEq(a), b))
  {
    EqCompiles(a, opts);
    EvalAny(EqTo(PrepareEq(a)), b, k, o, h);
  }

  lemma EqCompiles(a: Value, opts: Options)
    ensures Compile(Q("$eq", a), opts) == Ok(Any(EqTo(PrepareEq(a))))
  {
    SingleOperator("$eq", a, opts);
  }

  /** `$ne` holds for a non-empty array only when no element is equal to the
      parameter; anything else, the empty array included, is tested itself. */
  lemma NeOperator(a: Value, b: Value, opts: Options, h: Host, k: Key, o: Value)
    ensures Compile(Q("$ne", a), opts) == Ok(NotEq(PrepareEq(a)))
    ensures b.Arr? && |b.elems| > 0 ==>
      Eval(NotEq(PrepareEq(a)), b, k, o, h) == Sync(forall i | 0 <= i < |b.elems| :: !EqHolds(PrepareEq(a), b.elems[i]))
    ensures !(b.Arr? && |b.elems| > 0) ==> Eval(NotEq(PrepareEq(a)), b, k, o, h) == Sync(!EqHolds(PrepareEq(a), b))
  {
    NeCompiles(a, opts);
    EvalNotEq(PrepareEq(a), b, k, o, h);
  }

  lemma NeCompiles(a: Value, opts: Options)
    ensures Compile(Q("$ne", a), opts) == Ok(NotEq(PrepareEq(a)))
  {
    SingleOperator("$ne", a, opts);
  }

  /** The general equality test is `compare(...) === 0`, that is `===` on the
      normalised operands: values of different types are never equal. */
  lemma EqualsIsStrictEquality(target: Value, b: Value)
    ensures EqHolds(Equals(target), b) <==> StrictEq(Comparable(b), target)
  {
  }

  /** `{$eq: null}` matches both `null` and `undefined`, and nothing else. */
  lemma EqNullMatchesNullish(b: Value, opts: Options, h: Host, k: Key, o: Value)
    requires !b.Arr?
    ensures Compile(Q("$eq", Null), opts).Ok?
    ensures Eval(Compile(Q("$eq", Null), opts).value, b, k, o, h) == Sync(b.Nullish())
  {
    EqOperator(Null, b, opts, h, k, o);
  }

  /** `{$eq: []}` matches the empty array and, on a non-empty array, only an
      array holding an empty array. */
  lemma EqEmptyArrayMatchesEmptyArrays(b: Value, opts: Options, h: Host, k: Key, o: Value)
    ensures Compile(Q("$eq", Arr([])), opts).Ok?
    ensures !(b.Arr? && |b.elems| > 0) ==>
      Eval(Compile(Q("$eq", Arr([])), opts).value, b, k, o, h) == Sync(b == Arr([]))
    ensures b.Arr? && |b.elems| > 0 ==>
      Eval(Compile(Q("$eq", Arr([])), opts).value, b, k, o, h) == Sync(Arr([]) in b.elems)
  {
    EqOperator(Arr([]), b, opts, h, k, o);
    if b.Arr? && |b.elems| > 0 {
      assert (exists i | 0 <= i < |b.elems| :: b.elems[i] == Arr([])) <==> Arr([]) in b.elems;
    }
  }

  /** `$exists` asks whether the parent has the key as an own property,
      whatever the value under it, `undefined` included; the parameter counts
      by its truthiness. */
  lemma ExistsOperator(a: Value, b: Value, key: string, fs: seq<Field>, opts: Options, h: Host)
    ensures Compile(Q("$exists", a), opts) == Ok(Exists(Truthy(a)))
    ensures Eval(Exists(Truthy(a)), b, Prop(key), Obj(fs), h) == Sync((key in KeySet(fs)) == Truthy(a))
  {
    ExistsCompiles(a, opts);
    EvalExists(Truthy(a), b, Prop(key), Obj(fs), h);
  }

  lemma ExistsCompiles(a: Value, opts: Options)
    ensures Compile(Q("$exists", a), opts) == Ok(Exists(Truthy(a)))
  {
    SingleOperator("$exists", a, opts);
  }

  /** Without a parent to look the key up in, `$exists` raises. */
  lemma ExistsWithoutParentRaises(want: bool, b: Value, k: Key, o: Value, h: Host)
    requires o.Nullish()
    ensures Eval(Exists(want), b, k, o, h) == Threw(TypeError)
  {
  }

  /** `$size` compares the `length` of a truthy value with `===`: an array
      or a non-empty string matches when it has exactly that many elements or
      characters, a plain object when its `length` field is that number; a
      number, a boolean, a date, the empty string or a nullish value never
      matches. */
  lemma SizeOperator(n: int, b: Value, opts: Options, h: Host, k: Key, o: Value)
    ensures Compile(Q("$size", Num(n)), opts) == Ok(SizeIs(Num(n)))
    ensures Eval(SizeIs(Num(n)), b, k, o, h) ==
      Sync(if b.Arr? then |b.elems| == n
           else if b.Str? then |b.s| > 0 && |b.s| == n
           else b.Obj? && Lookup(b.fields, "length") == Num(n))
  {
    SizeCompiles(n, opts);
    EvalSizeIs(Num(n), b, k, o, h);
  }

  lemma SizeCompiles(n: int, opts: Options)
    ensures Compile(Q("$size", Num(n)), opts) == Ok(SizeIs(Num(n)))
  {
    SingleOperator("$size", Num(n), opts);
  }

  /** `x % d` of JavaScript is odd in its dividend. */
  lemma TruncRemOdd(x: int, d: int)
    requires d != 0
    ensures TruncRem(-x, d) == -TruncRem(x, d)
  {
    var m := if d > 0 then d else -d;
    if x > 0 {
      assert TruncRem(-x, d) == -(x % m);
      assert TruncRem(x, d) == x % m;
    } else if x < 0 {
      assert TruncRem(x, d) == -((-x) % m);
      assert TruncRem(-x, d) == (-x) % m;
    } else {
      assert TruncRem(0, d) == 0;
    }
  }

  /** And agrees with Euclidean remainder on non-negative operands. */
  lemma TruncRemNonNegative(x: int, d: int)
    requires x >= 0 && d > 0
    ensures TruncRem(x, d) == x % d
  {
  }

  /** `$mod: [d, r]` on an integer tests `b % d == r` with the remainder
      taking the sign of the dividend; a zero divisor never matches. */
  lemma ModOperator(d: int, r: int, x: int, opts: Options, h: Host, k: Key, o: Value)
    ensures Compile(Q("$mod", Arr([Num(d), Num(r)])), opts) == Ok(Any(ModOf(Arr([Num(d), Num(r)]))))
    ensures Eval(Any(ModOf(Arr([Num(d), Num(r)]))), Num(x), k, o, h) == Sync(d != 0 && TruncRem(x, d) == r)
  {
    ModCompiles(d, r, opts);
    EvalAny(ModOf(Arr([Num(d), Num(r)])), Num(x), k, o, h);
    ModTestMeaning(d, r, Num(x), h);
  }

  /** One candidate of `{$mod: [d, r]}`: it converts to a number whose
      truncating remainder by a non-zero `d` is `r`. */
  lemma ModTestMeaning(d: int, r: int, x: Value, h: Host)
    ensures TestOne(ModOf(Arr([Num(d), Num(r)])), x, h) ==
      Sync(d != 0 && NumberOf(x).Some? && TruncRem(NumberOf(x).value, d) == r)
  {
    assert ArrayIndex("0") == Some(0) && ArrayIndex("1") == Some(1);
  }

  /** On a non-empty array, `$mod` matches when some element does. */
  lemma ModOverArray(d: int, r: int, xs: seq<Value>, k: Key, o: Value, h: Host)
    requires |xs| > 0
    ensures Eval(Any(ModOf(Arr([Num(d), Num(r)]))), Arr(xs), k, o, h) ==
      Sync(exists i | 0 <= i < |xs| :: d != 0 && NumberOf(xs[i]).Some? && TruncRem(NumberOf(xs[i]).value, d) == r)
  {
    EvalAny(ModOf(Arr([Num(d), Num(r)])), Arr(xs), k, o, h);
    forall i | 0 <= i < |xs|
      ensures (TestOne(ModOf(Arr([Num(d), Num(r)])), xs[i], h) == Sync(true)) ==
        (d != 0 && NumberOf(xs[i]).Some? && TruncRem(NumberOf(xs[i]).value, d) == r)
    {
      ModTestMeaning(d, r, xs[i], h);
    }
  }

  /** So `{groups: {$mod: [2, 0]}}` matches groups `[1, 2, 3, 4]`, which hold
      an even number, and not `[7, 9]`. */
  lemma ModOverGroups(k: Key, o: Value, h: Host)
    ensures Eval(Any(ModOf(Arr([Num(2), Num(0)]))), Arr([Num(1), Num(2), Num(3), Num(4)]), k, o, h) == Sync(true)
    ensures Eval(Any(ModOf(Arr([Num(2), Num(0)]))), Arr([Num(7), Num(9)]), k, o, h) == Sync(false)
  {
    var xs := [Num(1), Num(2), Num(3), Num(4)];
    ModOverArray(2, 0, xs, k, o, h);
    assert TruncRem(NumberOf(xs[1]).value, 2) == 0;
    var ys := [Num(7), Num(9)];
    ModOverArray(2, 0, ys, k, o, h);
    assert TruncRem(7, 2) == 1 && TruncRem(9, 2) == 1;
  }

  /** An array converts to a number through its string, so a one-element
      array counts as its element: `{$mod: [2, 1]}` matches `[[3]]`, and
      `{$mod: [[2], [1]]}` matches 3. */
  lemma ModOfSingletonArrays(k: Key, o: Value, h: Host)
    ensures Eval(Any(ModOf(Arr([Num(2), Num(1)]))), Arr([Arr([Num(3)])]), k, o, h) == Sync(true)
    ensures Eval(Any(ModOf(Arr([Arr([Num(2)]), Arr([Num(1)])]))), Num(3), k, o, h) == Sync(true)
  {
    ModOverArray(2, 1, [Arr([Num(3)])], k, o, h);
    ArrayNumberOfElements([Num(3)]);
    assert TruncRem(3, 2) == 1;
    var a := Arr([Arr([Num(2)]), Arr([Num(1)])]);
    EvalAny(ModOf(a), Num(3), k, o, h);
    assert ArrayIndex("0") == Some(0) && ArrayIndex("1") == Some(1);
    assert Get(a, "0") == Arr([Num(2)]) && Get(a, "1") == Arr([Num(1)]);
    ArrayNumberOfElements([Num(2)]);
    ArrayNumberOfElements([Num(1)]);
  }

  lemma ModCompiles(d: int, r: int, opts: Options)
    ensures Compile(Q("$mod", Arr([Num(d), Num(r)])), opts) == Ok(Any(ModOf(Arr([Num(d), Num(r)]))))
  {
    SingleOperator("$mod", Arr([Num(d), Num(r)]), opts);
    assert Normalized(Arr([Num(d), Num(r)]));
  }

  /** `-3 % 2` is `-1` in JavaScript, so `{$mod: [2, 1]}` rejects -3 and
      accepts 3, while `{$mod: [2, -1]}` accepts -3. */
  lemma ModOfNegative(opts: Options, h: Host, k: Key, o: Value)
    ensures Eval(Any(ModOf(Arr([Num(2), Num(1)]))), Num(-3), k, o, h) == Sync(false)
    ensures Eval(Any(ModOf(Arr([Num(2), Num(1)]))), Num(3), k, o, h) == Sync(true)
    ensures Eval(Any(ModOf(Arr([Num(2), Num(-1)]))), Num(-3), k, o, h) == Sync(true)
  {
    ModOperator(2, 1, -3, opts, h, k, o);
    ModOperator(2, 1, 3, opts, h, k, o);
    ModOperator(2, -1, -3, opts, h, k, o);
  }

  /** `$mod` with a null or undefined parameter raises when it is applied. */
  lemma ModOfNullishRaises(a: Value, x: Value, k: Key, o: Value, h: Host)
    requires a.Nullish()
    ensures Eval(Any(ModOf(a)), x, k, o, h) == Threw(TypeError)
  {
  }

  /** An entry of an `$in` parameter that is a primitive other than null or
      undefined compiles, as a root query, to equality with itself. */
  lemma PrimitiveEntry(x: Value)
    requires Primitive(x) && !x.Nullish()
    ensures Compile(x, NoOptions) == Ok(Any(EqTo(Equals(x))))
  {
  }

  lemma PrimitiveEntryResult(xs: seq<Value>, j: nat, b: Value, h: Host)
    requires forall i | 0 <= i < |xs| :: Primitive(xs[i]) && !xs[i].Nullish()
    requires Primitive(b) && !b.Nullish()
    requires j < |xs|
    ensures InOf(Arr(xs)).params == Arr(xs)
    ensures EntryResults(InOf(Arr(xs)), b, h)[j] == Sync(StrictEq(xs[j], b))
  {
    assert Normalized(Arr(xs));
    var v := InOf(Arr(xs));
    EntriesCompiledAlone(xs, j);
    PrimitiveEntry(xs[j]);
    assert v.entries[j] == Ok(Any(EqTo(Equals(xs[j]))));
    var r := Eval(Any(EqTo(Equals(xs[j]))), b, Prop(DecimalString(j)), v.params, h);
    assert r == Sync(StrictEq(xs[j], b));
  }

  /** `$in` and `$nin` compile their parameter's entries one by one. */
  lemma InCompiles(a: Value, opts: Options)
    ensures Compile(Q("$in", a), opts) == Ok(InOf(a))
    ensures Compile(Q("$nin", a), opts) == Ok(Not(InOf(a)))
  {
    SingleOperator("$in", a, opts);
    NinCompiles(a, opts);
  }

  lemma NinCompiles(a: Value, opts: Options)
    ensures Compile(Q("$nin", a), opts) == Ok(Not(InOf(a)))
  {
    SingleOperator("$nin", a, opts);
  }

  /** On a boolean, number or string, `$in` with an array parameter ends by
      OR-ing the entries' synchronous answers with `===` membership. */
  lemma InDecidePrimitive(ps: seq<Value>, b: Value, rs: seq<Res>, e: bool)
    requires Primitive(b) && !b.Nullish()
    requires SomeMaybe(rs) == Sync(e)
    ensures InDecide(Arr(ps), b, rs) == Sync(e || exists j | 0 <= j < |ps| :: StrictEq(ps[j], b))
  {
    assert Comparable(b) == b;
  }

  /** `{$in: xs}` with primitive entries other than null and undefined
      matches a boolean, number or string exactly when it is `===` to some
      entry. */
  lemma InPrimitives(xs: seq<Value>, b: Value, h: Host, k: Key, o: Value)
    requires forall j | 0 <= j < |xs| :: Primitive(xs[j]) && !xs[j].Nullish()
    requires Primitive(b) && !b.Nullish()
    ensures Eval(InOf(Arr(xs)), b, k, o, h) == Sync(exists j | 0 <= j < |xs| :: StrictEq(xs[j], b))
  {
    var v := InOf(Arr(xs));
    var rs := EntryResults(v, b, h);
    forall j | 0 <= j < |xs| ensures rs[j] == Sync(StrictEq(xs[j], b)) {
      PrimitiveEntryResult(xs, j, b, h);
    }
    SomeOfSync(rs);
    var found := exists j | 0 <= j < |xs| :: StrictEq(xs[j], b);
    assert SomeMaybe(rs) == Sync(found) by {
      assert forall j | 0 <= j < |rs| :: rs[j].b == StrictEq(xs[j], b);
    }
    assert Normalized(Arr(xs));
    InDecidePrimitive(xs, b, rs, found);
    EvalIn(v, b, k, o, h);
  }

  /** And `{$nin: xs}` exactly when it is `===` to none. */
  lemma NinPrimitives(xs: seq<Value>, b: Value, h: Host, k: Key, o: Value)
    requires forall j | 0 <= j < |xs| :: Primitive(xs[j]) && !xs[j].Nullish()
    requires Primitive(b) && !b.Nullish()
    ensures Eval(Not(InOf(Arr(xs))), b, k, o, h) == Sync(!exists j | 0 <= j < |xs| :: StrictEq(xs[j], b))
  {
    InPrimitives(xs, b, h, k, o);
    EvalNot(InOf(Arr(xs)), b, k, o, h);
  }
}

=== FILE: paths.dfy ===
/** Dotted field paths: splitting a query key into segments and resolving the
    segments against a document (`findValues`), fanning out over arrays. */
module Paths {
  import opened Values

  /** `key.split('.')`. */
  function Split(s: string): (parts: seq<string>)
    ensures |parts| >= 1
    ensures forall i | 0 <= i < |parts| :: '.' !in parts[i]
    ensures Join(parts) == s
    decreases |s|
  {
    if |s| == 0 then [""]
    else
      var rest := Split(s[1..]);
      if s[0] == '.' then
        assert s == "." + s[1..];
        [""] + rest
      else
        assert s == [s[0]] + s[1..];
        assert Join(rest) == rest[0] + (if |rest| == 1 then "" else "." + Join(rest[1..]));
        [[s[0]] + rest[0]] + rest[1..]
  }

  /** `parts.join('.')`. */
  function Join(parts: seq<string>): string
    requires |parts| >= 1
  {
    if |parts| == 1 then parts[0] else parts[0] + "." + Join(parts[1..])
  }

  /** Splitting a joined path gives back its segments, provided no segment
      contains a dot. */
  lemma {:induction false} SplitJoin(parts: seq<string>)
    requires |parts| >= 1
    requires forall i | 0 <= i < |parts| :: '.' !in parts[i]
    ensures Split(Join(parts)) == parts
    decreases |parts|, |parts[0]|
  {
    var p := parts[0];
    if |p| > 0 {
      var shorter := [p[1..]] + parts[1..];
      assert forall i | 0 <= i < |shorter| :: '.' !in shorter[i] by {
        assert forall c | c in p[1..] :: c in p;
      }
      SplitJoin(shorter);
      assert Join(parts) == [p[0]] + Join(shorter);
      assert Join(parts)[1..] == Join(shorter);
      assert Join(parts)[0] == p[0] != '.';
      assert p == [p[0]] + p[1..];
    } else if |parts| > 1 {
      SplitJoin(parts[1..]);
      assert Join(parts)[1..] == Join(parts[1..]);
    }
  }

  /** A segment `Number(k)` reads as a number. Of the forms JavaScript
      accepts, the empty string and plain digit strings are modelled. */
  predicate IsNumericSegment(k: string) {
    AllDigits(k)
  }

  /** One resolved location: the value found, the key it was found under
      (`keypath[index - 1]`, undefined for the root) and its parent. */
  datatype Found = Found(value: Value, key: Key, parent: Value)

  /** `keypath[index - 1]`. */
  function KeyAt(path: seq<string>, index: nat): Key
    requires index <= |path|
  {
    if index == 0 then NoKey else Prop(path[index - 1])
  }

  /** `findValues(current, keypath, index, object, values)`: the locations the
      path from segment `index` on reaches from `cur`, in document order. */
  function FindValues(cur: Value, path: seq<string>, index: nat, parent: Value): (r: seq<Found>)
    requires index <= |path|
    ensures forall t | t in r :: t.value.Nullish() || t.key == KeyAt(path, |path|)
    ensures forall t | t in r :: t.key == KeyAt(path, index) || exists j | index < j <= |path| :: t.key == KeyAt(path, j)
    decreases |path| - index, cur
  {
    if index == |path| || cur.Nullish() then [Found(cur, KeyAt(path, index), parent)]
    else
      var k := path[index];
      if cur.Arr? && !IsNumericSegment(k) then FanOut(cur.elems, path, index, cur)
      else
        var r := FindValues(Get(cur, k), path, index + 1, cur);
        assert forall t | t in r && t.key == KeyAt(path, index + 1) :: exists j | index < j <= |path| :: t.key == KeyAt(path, j);
        r
  }

  /** The loop over an array's elements, each resolved from the same segment. */
  function FanOut(es: seq<Value>, path: seq<string>, index: nat, arr: Value): (r: seq<Found>)
    requires index < |path|
    ensures forall t | t in r :: t.value.Nullish() || t.key == KeyAt(path, |path|)
    ensures forall t | t in r :: t.key == KeyAt(path, index) || exists j | index < j <= |path| :: t.key == KeyAt(path, j)
    decreases |path| - index, es
  {
    if |es| == 0 then []
    else FindValues(es[0], path, index, arr) + FanOut(es[1..], path, index, arr)
  }

  /** Plain property access along the path, stopping at null or undefined:
      the value the path denotes when no array has to be fanned out over. */
  function Walk(cur: Value, path: seq<string>, index: nat): Value
    requires index <= |path|
    decreases |path| - index
  {
    if index == |path| || cur.Nullish() then cur else Walk(Get(cur, path[index]), path, index + 1)
  }

  /** No array is met where a non-numeric segment must be applied. */
  predicate NoFanOut(cur: Value, path: seq<string>, index: nat)
    requires index <= |path|
    decreases |path| - index
  {
    index == |path| || cur.Nullish() ||
    (!(cur.Arr? && !IsNumericSegment(path[index])) && NoFanOut(Get(cur, path[index]), path, index + 1))
  }

  /** The key under which `Walk` stops. */
  function WalkKey(cur: Value, path: seq<string>, index: nat): Key
    requires index <= |path|
    decreases |path| - index
  {
    if index == |path| || cur.Nullish() then KeyAt(path, index) else WalkKey(Get(cur, path[index]), path, index + 1)
  }

  /** The value `Walk` stops in: the parent of the value it reaches, or
      `parent` itself when it stops at once. */
  function WalkParent(cur: Value, path: seq<string>, index: nat, parent: Value): Value
    requires index <= |path|
    decreases |path| - index
  {
    if index == |path| || cur.Nullish() then parent else WalkParent(Get(cur, path[index]), path, index + 1, cur)
  }

  /** Without fan-out, resolving a path yields exactly one location: the
      value plain property access reaches, the key it is read under and the
      value it is read from. */
  lemma {:induction false} SingleLocation(cur: Value, path: seq<string>, index: nat, parent: Value)
    requires index <= |path|
    requires NoFanOut(cur, path, index)
    ensures |FindValues(cur, path, index, parent)| == 1
    ensures FindValues(cur, path, index, parent)[0].value == Walk(cur, path, index)
    ensures FindValues(cur, path, index, parent)[0].key == WalkKey(cur, path, index)
    ensures FindValues(cur, path, index, parent)[0].parent == WalkParent(cur, path, index, parent)
    decreases |path| - index
  {
    if index < |path| && !cur.Nullish() {
      SingleLocation(Get(cur, path[index]), path, index + 1, cur);
    }
  }

  /** Fanning out over an empty array yields no location at all. */
  lemma EmptyArrayYieldsNothing(path: seq<string>, index: nat, parent: Value)
    requires index < |path| && !IsNumericSegment(path[index])
    ensures FindValues(Arr([]), path, index, parent) == []
  {
  }

  /** A last, non-numeric segment applied to an array of plain objects reads
      that field of every element, each element being the parent. */
  lemma {:induction false} LastSegmentOverObjects(es: seq<Value>, path: seq<string>, parent: Value)
    requires |path| >= 1 && !IsNumericSegment(path[|path| - 1])
    requires forall i | 0 <= i < |es| :: es[i].Obj?
    ensures FindValues(Arr(es), path, |path| - 1, parent) ==
      seq(|es|, i requires 0 <= i < |es| => Found(Get(es[i], path[|path| - 1]), Prop(path[|path| - 1]), es[i]))
  {
    FanOutOverObjects(es, path, Arr(es));
  }

  lemma {:induction false} FanOutOverObjects(es: seq<Value>, path: seq<string>, arr: Value)
    requires |path| >= 1
    requires forall i | 0 <= i < |es| :: es[i].Obj?
    ensures FanOut(es, path, |path| - 1, arr) ==
      seq(|es|, i requires 0 <= i < |es| => Found(Get(es[i], path[|path| - 1]), Prop(path[|path| - 1]), es[i]))
    decreases |es|
  {
    if |es| > 0 {
      var k := path[|path| - 1];
      FanOutOverObjects(es[1..], path, arr);
      assert FindValues(es[0], path, |path| - 1, arr) == [Found(Get(es[0], k), Prop(k), es[0])] by {
        assert FindValues(es[0], path, |path| - 1, arr) == FindValues(Get(es[0], k), path, |path|, es[0]);
      }
    }
  }

  /** When no element needs a further fan-out, fanning out over an array
      yields exactly one location per element. */
  lemma {:induction false} FanOutCount(es: seq<Value>, path: seq<string>, index: nat, arr: Value)
    requires index < |path|
    requires forall i | 0 <= i < |es| :: NoFanOut(es[i], path, index)
    ensures |FanOut(es, path, index, arr)| == |es|
    decreases |es|
  {
    if |es| > 0 {
      SingleLocation(es[0], path, index, arr);
      FanOutCount(es[1..], path, index, arr);
    }
  }
}

=== FILE: properties.dfy ===
/** Properties of compiled queries: how `parse` rewrites and rejects queries,
    and what the operators answer. */
module Properties {
  import opened Values
  import opened Errors
  import opened Comparison
  import opened MaybeAsync
  import opened Equality
  import opened Paths
  import opened TypeAliases
  import opened Validators
  import opened Compiler

  /** A one-key query object `{key: a}`. */
  function Q(key: string, a: Value): Value {
    Obj([Field(key, a)])
  }

  /** An object whose first key starts with `$` is never an exact object. */
  lemma DollarKeyNotExact(fs: seq<Field>)
    requires |fs| > 0 && |fs[0].key| > 0 && fs[0].key[0] == '$'
    ensures !IsExactObject(Obj(fs))
  {
    assert AllKeys(Obj(fs)) == FieldKeys(fs);
    assert FieldKeys(fs)[0] == fs[0].key;
    assert Special(fs[0].key);
  }

  /** A one-operator query compiles to that operator's validator. */
  lemma {:induction false} SingleOperator(key: string, a: Value, opts: Options)
    requires key in BuiltIns
    ensures Compile(Q(key, a), opts) == CompileBuiltIn([Field(key, a)], key, a, opts)
  {
    var fs := [Field(key, a)];
    DollarKeyNotExact(fs);
    assert Comparable(Q(key, a)) == Q(key, a);
    assert fs[1..] == [];
    assert CompileKeys(fs, fs[1..], opts) == Ok([]);
    var r := CompileBuiltIn(fs, key, a, opts);
    if r.Ok? {
      assert CompileKeys(fs, fs, opts) == Ok([r.value] + []);
    } else {
      assert CompileKeys(fs, fs, opts) == Err(r.error);
    }
  }

  /** A query that is not a plain object is compiled exactly as `{$eq: query}`. */
  lemma {:induction false} LiteralQueryIsEq(q: Value, opts: Options)
    requires !q.Obj?
    ensures Compile(q, opts) == Compile(Q("$eq", q), opts)
  {
    SingleOperator("$eq", q, opts);
    ComparableIdempotent(q);
    assert Comparable(q) == Arr([]) <==> q == Arr([]);
  }

  /** A plain query object none of whose keys, at any depth of nested
      objects, contains `$` or `.` matches exactly the documents deep-equal
      to it. */
  lemma ExactQueryIsDeepEquality(fs: seq<Field>, opts: Options, h: Host, b: Value, k: Key, o: Value)
    requires PlainKeys(Obj(fs)) && "constructor" !in KeySet(fs)
    ensures Compile(Obj(fs), opts) == Ok(Exact(Obj(fs)))
    ensures Eval(Exact(Obj(fs)), b, k, o, h) == Sync(IsEqual(Obj(fs), b))
  {
    ExactObjectIsPlainKeys(Obj(fs));
  }

  /** An own `constructor` key makes a query object not plain: it is
      compiled as `{$eq: query}`, which compares by reference, so it matches
      no document at all, not even a deep-equal one. */
  lemma ConstructorKeyMatchesNothing(fs: seq<Field>, opts: Options, h: Host, b: Value, k: Key, o: Value)
    requires "constructor" in KeySet(fs)
    ensures Compile(Obj(fs), opts) == Ok(Any(EqTo(Equals(Obj(fs)))))
    ensures Eval(Compile(Obj(fs), opts).value, b, k, o, h) == Sync(false)
  {
    assert Comparable(Obj(fs)) == Obj(fs);
    EvalAny(EqTo(Equals(Obj(fs))), b, k, o, h);
  }

  /** So a document with a field the exact query lacks does not match. */
  lemma ExactQueryRejectsExtraFields(fa: seq<Field>, fb: seq<Field>, extra: string, opts: Options, h: Host, k: Key, o: Value)
    requires PlainKeys(Obj(fa)) && "constructor" !in KeySet(fa)
    requires DistinctKeys(fa) && DistinctKeys(fb)
    requires extra in KeySet(fb) && extra !in KeySet(fa)
    ensures Compile(Obj(fa), opts).Ok?
    ensures Eval(Compile(Obj(fa), opts).value, Obj(fb), k, o, h) == Sync(false)
  {
    ExactObjectIsPlainKeys(Obj(fa));
    ExtraFieldRejected(fa, fb, extra);
  }

  /** And an exact query matches a document with the same fields in any order. */
  lemma ExactQueryMatchesReordered(fa: seq<Field>, fb: seq<Field>, opts: Options, h: Host, k: Key, o: Value)
    requires PlainKeys(Obj(fa)) && "constructor" !in KeySet(fa)
    requires WellFormed(Obj(fa)) && DateFree(Obj(fa))
    requires DistinctKeys(fb) && KeySet(fa) == KeySet(fb)
    requires forall key | key in KeySet(fa) :: Lookup(fa, key) == Lookup(fb, key)
    ensures Compile(Obj(fa), opts).Ok?
    ensures Eval(Compile(Obj(fa), opts).value, Obj(fb), k, o, h) == Sync(true)
  {
    ExactObjectIsPlainKeys(Obj(fa));
    ObjectsEqualExactly(fa, fb);
    forall key | key in KeySet(fa) ensures IsEqual(Lookup(fa, key), Lookup(fb, key)) {
      var i :| 0 <= i < |fa| && fa[i].key == key;
      LookupDistinct(fa, i);
      IsEqualReflexive(fa[i].val);
    }
  }

  /** An unknown `$` key as the first key of a plain query object is a
      compile-time error naming it. */
  lemma {:induction false} UnknownFirstKeyRejected(fs: seq<Field>, opts: Options)
    requires |fs| > 0 && UnknownOperator(fs[0].key, opts) && "constructor" !in KeySet(fs)
    ensures Compile(Obj(fs), opts) == Err(UnknownOperation(fs[0].key))
    ensures Message(Compile(Obj(fs), opts).error) == "Unknown operation " + fs[0].key
  {
    DollarKeyNotExact(fs);
  }

  lemma UnknownOperationMessage()
    ensures Compile(Q("$aaa", Num(1)), NoOptions) == Err(UnknownOperation("$aaa"))
    ensures Message(Compile(Q("$aaa", Num(1)), NoOptions).error) == "Unknown operation $aaa"
  {
    UnknownFirstKeyRejected([Field("$aaa", Num(1))], NoOptions);
  }

  /** A `$options` key contributes no validator, wherever it stands. */
  lemma {:induction false} OptionsKeySkipped(whole: seq<Field>, rest: seq<Field>, p: nat, x: Value, opts: Options)
    requires p <= |rest|
    ensures CompileKeys(whole, rest[..p] + [Field("$options", x)] + rest[p..], opts) == CompileKeys(whole, rest, opts)
    decreases p
  {
    var with := rest[..p] + [Field("$options", x)] + rest[p..];
    if p == 0 {
      assert with == [Field("$options", x)] + rest;
      OptionsHeadSkipped(whole, rest, x, opts);
    } else {
      OptionsKeySkipped(whole, rest[1..], p - 1, x, opts);
      InsertAfterHead(rest, p, Field("$options", x));
      SameHeadSameKeys(whole, with, rest, opts);
    }
  }

  /** An `$options` key at the front is passed over. */
  lemma OptionsHeadSkipped(whole: seq<Field>, rest: seq<Field>, x: Value, opts: Options)
    ensures CompileKeys(whole, [Field("$options", x)] + rest, opts) == CompileKeys(whole, rest, opts)
  {
    assert ([Field("$options", x)] + rest)[1..] == rest;
  }

  lemma InsertAfterHead(rest: seq<Field>, p: nat, f: Field)
    requires 0 < p <= |rest|
    ensures (rest[..p] + [f] + rest[p..])[0] == rest[0]
    ensures (rest[..p] + [f] + rest[p..])[1..] == rest[1..][..p - 1] + [f] + rest[1..][p - 1..]
  {
  }

  lemma SameHeadSameKeys(whole: seq<Field>, a: seq<Field>, b: seq<Field>, opts: Options)
    requires |a| > 0 && |b| > 0 && a[0] == b[0]
    requires CompileKeys(whole, a[1..], opts) == CompileKeys(whole, b[1..], opts)
    ensures CompileKeys(whole, a, opts) == CompileKeys(whole, b, opts)
  {
  }

  /** An unknown `$` key anywhere among the keys stops the loop of `parse`
      with an error (an earlier key may fail first). */
  lemma {:induction false} UnknownKeyStopsLoop(whole: seq<Field>, rest: seq<Field>, i: nat, opts: Options)
    requires i < |rest| && UnknownOperator(rest[i].key, opts)
    ensures CompileKeys(whole, rest, opts).Err?
    decreases i
  {
    if i > 0 {
      assert rest[1..][i - 1] == rest[i];
      UnknownKeyStopsLoop(whole, rest[1..], i - 1, opts);
      KeysStep(whole, rest, opts);
    } else {
      UnknownHeadStopsLoop(whole, rest, opts);
    }
  }

  lemma UnknownHeadStopsLoop(whole: seq<Field>, rest: seq<Field>, opts: Options)
    requires |rest| > 0 && UnknownOperator(rest[0].key, opts)
    ensures CompileKeys(whole, rest, opts).Err?
  {
    assert CompileKey(whole, rest[0].key, rest[0].val, opts).Err?;
  }

  /** So a query object with an unknown `$` key in any position fails to
      compile, and `sift` raises before testing any value. */
  lemma UnknownKeyRejected(fs: seq<Field>, i: nat, opts: Options, h: Host, b: Value, k: Key, o: Value)
    requires i < |fs| && UnknownOperator(fs[i].key, opts) && "constructor" !in KeySet(fs)
    ensures Compile(Obj(fs), opts).Err?
    ensures Sift(Obj(fs), opts, h, b, k, o).Err?
  {
    ExactObjectIsPlainKeys(Obj(fs));
    assert Special(fs[i].key) by {
      assert fs[i].key[0] == '$';
    }
    assert Comparable(Obj(fs)) == Obj(fs);
    UnknownKeyStopsLoop(fs, fs, i, opts);
  }

  /** `{$type: "beep"}` fails to compile with `unknown type alias: beep`, so
      `sift` raises before any value is tested. */
  lemma UnknownTypeAliasRejected(opts: Options, h: Host, b: Value, k: Key, o: Value)
    ensures Compile(Q("$type", Str("beep")), opts) == Err(UnknownTypeAlias(Str("beep")))
    ensures Sift(Q("$type", Str("beep")), opts, h, b, k, o) == Err(UnknownTypeAlias(Str("beep")))
    ensures Message(UnknownTypeAlias(Str("beep"))) == "unknown type alias: beep"
  {
    SingleOperator("$type", Str("beep"), opts);
    UnknownAliasRejected();
  }

  /** The loop of `parse` yields the operand keys' validators in key order:
      the i-th is the i-th key other than `$options`, compiled alone. */
  lemma {:induction false} CompileKeysInOrder(whole: seq<Field>, rest: seq<Field>, opts: Options, i: nat)
    requires CompileKeys(whole, rest, opts).Ok? && i < |Operands(rest)|
    ensures CompileKey(whole, Operands(rest)[i].key, Operands(rest)[i].val, opts) == Ok(CompileKeys(whole, rest, opts).value[i])
    decreases |rest|
  {
    if rest[0].key == "$options" {
      CompileKeysInOrder(whole, rest[1..], opts, i);
    } else if i > 0 {
      CompileKeysInOrder(whole, rest[1..], opts, i - 1);
    }
  }

  /** One step of the loop: an `$options` key is passed over, any other key
      must compile and so must the rest. */
  lemma KeysStep(whole: seq<Field>, rest: seq<Field>, opts: Options)
    requires |rest| > 0
    ensures rest[0].key == "$options" ==>
      CompileKeys(whole, rest, opts) == CompileKeys(whole, rest[1..], opts) && Operands(rest) == Operands(rest[1..])
    ensures rest[0].key != "$options" ==>
      Operands(rest) == [rest[0]] + Operands(rest[1..]) &&
      (CompileKeys(whole, rest, opts).Ok? <==>
         CompileKey(whole, rest[0].key, rest[0].val, opts).Ok? && CompileKeys(whole, rest[1..], opts).Ok?)
  {
  }

  /** A failing loop names an operand key that fails to compile. */
  lemma {:induction false} FailingKey(whole: seq<Field>, rest: seq<Field>, opts: Options) returns (i: nat)
    requires CompileKeys(whole, rest, opts).Err?
    ensures i < |Operands(rest)| && CompileKey(whole, Operands(rest)[i].key, Operands(rest)[i].val, opts).Err?
    decreases |rest|
  {
    KeysStep(whole, rest, opts);
    if rest[0].key == "$options" {
      i := FailingKey(whole, rest[1..], opts);
    } else if CompileKey(whole, rest[0].key, rest[0].val, opts).Err? {
      i := 0;
      assert Operands(rest)[0] == rest[0];
    } else {
      var j := FailingKey(whole, rest[1..], opts);
      i := j + 1;
      assert Operands(rest)[i] == Operands(rest[1..])[j];
    }
  }

  /** The loop succeeds exactly when every operand key compiles. */
  lemma CompileKeysSucceeds(whole: seq<Field>, rest: seq<Field>, opts: Options)
    ensures CompileKeys(whole, rest, opts).Ok? <==>
      forall i | 0 <= i < |Operands(rest)| :: CompileKey(whole, Operands(rest)[i].key, Operands(rest)[i].val, opts).Ok?
  {
    if CompileKeys(whole, rest, opts).Ok? {
      forall i | 0 <= i < |Operands(rest)|
        ensures CompileKey(whole, Operands(rest)[i].key, Operands(rest)[i].val, opts).Ok?
      {
        CompileKeysInOrder(whole, rest, opts, i);
      }
    } else {
      var i := FailingKey(whole, rest, opts);
    }
  }

  /** A plain, non-exact query object compiles when each operand key does;
      one operand key yields that key's validator itself, several their
      conjunction in key order. */
  lemma SiblingKeysConjoin(fs: seq<Field>, opts: Options)
    requires "constructor" !in KeySet(fs) && !IsExactObject(Obj(fs))
    ensures Compile(Obj(fs), opts).Ok? <==>
      forall i | 0 <= i < |Operands(fs)| :: CompileKey(fs, Operands(fs)[i].key, Operands(fs)[i].val, opts).Ok?
    ensures Compile(Obj(fs), opts).Ok? ==>
      var v := Compile(Obj(fs), opts).value;
      var ops := Operands(fs);
      (|ops| == 1 ==> CompileKey(fs, ops[0].key, ops[0].val, opts) == Ok(v)) &&
      (|ops| != 1 ==>
         v.AllOf? && |v.parts| == |ops| &&
         forall i | 0 <= i < |ops| :: CompileKey(fs, ops[i].key, ops[i].val, opts) == Ok(v.parts[i]))
  {
    assert Comparable(Obj(fs)) == Obj(fs);
    CompileKeysSucceeds(fs, fs, opts);
    if CompileKeys(fs, fs, opts).Ok? {
      forall i | 0 <= i < |Operands(fs)|
        ensures CompileKey(fs, Operands(fs)[i].key, Operands(fs)[i].val, opts) == Ok(CompileKeys(fs, fs, opts).value[i])
      {
        CompileKeysInOrder(fs, fs, opts, i);
      }
    }
  }

  /** The array of `$and`, `$all`, `$or` or `$nor` is compiled element by
      element, in order. */
  lemma {:induction false} CompileListInOrder(es: seq<Value>, opts: Options, i: nat)
    requires CompileList(es, opts).Ok? && i < |es|
    ensures Compile(es[i], opts).Ok? && CompileList(es, opts).value[i] == Compile(es[i], opts).value
    decreases |es|
  {
    if i > 0 {
      assert es[1..][i - 1] == es[i];
      CompileListInOrder(es[1..], opts, i - 1);
    }
  }

  /** Compiling the array succeeds exactly when every element compiles. */
  lemma {:induction false} CompileListSucceeds(es: seq<Value>, opts: Options)
    ensures CompileList(es, opts).Ok? <==> forall i | 0 <= i < |es| :: Compile(es[i], opts).Ok?
    decreases |es|
  {
    if |es| > 0 {
      CompileListSucceeds(es[1..], opts);
      assert forall i | 1 <= i < |es| :: es[i] == es[1..][i - 1];
    }
  }

  /** `{key: [q1, ..., qn]}` for a logical operator compiles when each `qi`
      does, to the operator over the compiled `qi` in order. */
  lemma ConnectiveQuery(key: string, es: seq<Value>, opts: Options)
    requires key in {"$and", "$all", "$or", "$nor"}
    ensures Compile(Q(key, Arr(es)), opts).Ok? <==> forall i | 0 <= i < |es| :: Compile(es[i], opts).Ok?
    ensures Compile(Q(key, Arr(es)), opts).Ok? ==>
      var v := Compile(Q(key, Arr(es)), opts).value;
      (if key == "$or" then v.AnyOf? else if key == "$nor" then v.NoneOf? else v.AllOf?) &&
      |v.parts| == |es| && forall i | 0 <= i < |es| :: Compile(es[i], opts) == Ok(v.parts[i])
  {
    SingleOperator(key, Arr(es), opts);
    ConnectiveUnfolds([Field(key, Arr(es))], key, Arr(es), opts);
    CompileListSucceeds(es, opts);
    if CompileList(es, opts).Ok? {
      forall i | 0 <= i < |es|
        ensures Compile(es[i], opts) == Ok(CompileList(es, opts).value[i])
      {
        CompileListInOrder(es, opts, i);
      }
    }
  }

  /** So `{$and: [q1, ..., qn]}` matches a value exactly when every `qi`
      does, when they answer synchronously. */
  lemma AndQuery(es: seq<Value>, opts: Options, b: Value, k: Key, o: Value, h: Host)
    requires forall i | 0 <= i < |es| :: Compile(es[i], opts).Ok? && Pure(Compile(es[i], opts).value)
    ensures Compile(Q("$and", Arr(es)), opts).Ok?
    ensures Eval(Compile(Q("$and", Arr(es)), opts).value, b, k, o, h) ==
      Sync(forall i | 0 <= i < |es| :: Eval(Compile(es[i], opts).value, b, k, o, h) == Sync(true))
  {
    ConnectiveQuery("$and", es, opts);
    AllOfMeaning(Compile(Q("$and", Arr(es)), opts).value.parts, b, k, o, h);
  }

  /** `{$or: [q1, ..., qn]}` matches exactly when some `qi` does. */
  lemma OrQuery(es: seq<Value>, opts: Options, b: Value, k: Key, o: Value, h: Host)
    requires forall i | 0 <= i < |es| :: Compile(es[i], opts).Ok? && Pure(Compile(es[i], opts).value)
    ensures Compile(Q("$or", Arr(es)), opts).Ok?
    ensures Eval(Compile(Q("$or", Arr(es)), opts).value, b, k, o, h) ==
      Sync(exists i | 0 <= i < |es| :: Eval(Compile(es[i], opts).value, b, k, o, h) == Sync(true))
  {
    ConnectiveQuery("$or", es, opts);
    AnyOfMeaning(Compile(Q("$or", Arr(es)), opts).value.parts, b, k, o, h);
  }

  /** `{$nor: [q1, ..., qn]}` matches exactly when no `qi` does. */
  lemma NorQuery(es: seq<Value>, opts: Options, b: Value, k: Key, o: Value, h: Host)
    requires forall i | 0 <= i < |es| :: Compile(es[i], opts).Ok? && Pure(Compile(es[i], opts).value)
    ensures Compile(Q("$nor", Arr(es)), opts).Ok?
    ensures Eval(Compile(Q("$nor", Arr(es)), opts).value, b, k, o, h) ==
      Sync(forall i | 0 <= i < |es| :: Eval(Compile(es[i], opts).value, b, k, o, h) == Sync(false))
  {
    ConnectiveQuery("$nor", es, opts);
    NoneOfMeaning(Compile(Q("$nor", Arr(es)), opts).value.parts, b, k, o, h);
  }

  /** Over answers that are all synchronous, the conjunction and disjunction
      helpers are plain `forall` and `exists`. */
  lemma SyncAnswers(rs: seq<Res>)
    requires forall i | 0 <= i < |rs| :: rs[i].Sync?
    ensures EveryMaybe(rs) == Sync(forall i | 0 <= i < |rs| :: rs[i] == Sync(true))
    ensures SomeMaybe(rs) == Sync(exists i | 0 <= i < |rs| :: rs[i] == Sync(true))
    ensures Negated(SomeMaybe(rs)) == Sync(forall i | 0 <= i < |rs| :: rs[i] == Sync(false))
  {
    EveryOfSync(rs);
    SomeOfSync(rs);
    assert forall i | 0 <= i < |rs| :: rs[i].b == (rs[i] == Sync(true));
    assert forall i | 0 <= i < |rs| :: !rs[i].b == (rs[i] == Sync(false));
  }

  /** What the conjunction and disjunction helpers make of the answers of
      parts that all answer synchronously. */
  lemma EachAnswers(vs: seq<Validator>, b: Value, k: Key, o: Value, h: Host)
    requires forall i | 0 <= i < |vs| :: Pure(vs[i])
    ensures EvalEvery(vs, b, k, o, h) == Sync(forall i | 0 <= i < |vs| :: Eval(vs[i], b, k, o, h) == Sync(true))
    ensures EvalSome(vs, b, k, o, h) == Sync(exists i | 0 <= i < |vs| :: Eval(vs[i], b, k, o, h) == Sync(true))
    ensures Negated(EvalSome(vs, b, k, o, h)) == Sync(forall i | 0 <= i < |vs| :: Eval(vs[i], b, k, o, h) == Sync(false))
  {
    var rs := EvalEach(vs, b, k, o, h);
    EachIsSync(vs, b, k, o, h);
    SyncAnswers(rs);
  }

  /** The conjunction answers true exactly when every part does, in order,
      the first false part deciding. */
  lemma AllOfMeaning(vs: seq<Validator>, b: Value, k: Key, o: Value, h: Host)
    requires forall i | 0 <= i < |vs| :: Pure(vs[i])
    ensures Eval(AllOf(vs), b, k, o, h) == Sync(forall i | 0 <= i < |vs| :: Eval(vs[i], b, k, o, h) == Sync(true))
  {
    EvalAllOf(vs, b, k, o, h);
    EachAnswers(vs, b, k, o, h);
  }

  /** `$or` answers true exactly when some part does. */
  lemma AnyOfMeaning(vs: seq<Validator>, b: Value, k: Key, o: Value, h: Host)
    requires forall i | 0 <= i < |vs| :: Pure(vs[i])
    ensures Eval(AnyOf(vs), b, k, o, h) == Sync(exists i | 0 <= i < |vs| :: Eval(vs[i], b, k, o, h) == Sync(true))
  {
    EvalAnyOf(vs, b, k, o, h);
    EachAnswers(vs, b, k, o, h);
  }

  /** `$nor` answers true exactly when no part does. */
  lemma NoneOfMeaning(vs: seq<Validator>, b: Value, k: Key, o: Value, h: Host)
    requires forall i | 0 <= i < |vs| :: Pure(vs[i])
    ensures Eval(NoneOf(vs), b, k, o, h) == Sync(forall i | 0 <= i < |vs| :: Eval(vs[i], b, k, o, h) == Sync(false))
  {
    EvalNoneOf(vs, b, k, o, h);
    EachAnswers(vs, b, k, o, h);
  }

  /** `$not` (and so `$nin` over `$in`) negates a synchronous answer and
      chains the negation onto a deferred one. */
  lemma NotMeaning(inner: Validator, b: Value, k: Key, o: Value, h: Host, env: nat -> bool)
    ensures Pure(inner) ==> Eval(inner, b, k, o, h).Sync? && Eval(Not(inner), b, k, o, h) == Sync(!Eval(inner, b, k, o, h).b)
    ensures !Eval(inner, b, k, o, h).Threw? ==>
      !Eval(Not(inner), b, k, o, h).Threw? &&
      Eventually(Eval(Not(inner), b, k, o, h), env) == !Eventually(Eval(inner, b, k, o, h), env)
  {
    EvalNot(inner, b, k, o, h);
    if Pure(inner) {
      PureIsSync(inner, b, k, o, h);
    }
    if !Eval(inner, b, k, o, h).Threw? {
      ThenMaybeSettles(Eval(inner, b, k, o, h), Negate, env);
    }
  }

  /** `$elemMatch` on an array asks whether some element, tested on its own
      (no key, no parent), matches; an empty array never does. */
  lemma ElemMatchMeaning(inner: Validator, es: seq<Value>, k: Key, o: Value, h: Host)
    requires Pure(inner)
    ensures Eval(ElemMatch(inner), Arr(es), k, o, h) ==
      Sync(exists i | 0 <= i < |es| :: Eval(inner, es[i], NoKey, Undefined, h) == Sync(true))
  {
    var rs := EvalElements(ElemMatch(inner), es, h);
    EvalElemMatch(inner, es, k, o, h);
    forall i | 0 <= i < |es| ensures rs[i].Sync? {
      PureIsSync(inner, es[i], NoKey, Undefined, h);
    }
    SyncAnswers(rs);
  }

  /** A field path matches through its single location directly; through
      several (or none) it ORs the answers, or ANDs them when the field's own
      query has a defined `$ne`, starting from that same flag. */
  lemma NestedMeaning(path: seq<string>, inner: Validator, query: Value, b: Value, k: Key, o: Value, h: Host)
    ensures var ts := FindValues(b, path, 0, b);
      |ts| == 1 ==> Eval(Nested(path, inner, query), b, k, o, h) == Eval(inner, ts[0].value, ts[0].key, ts[0].parent, h)
    ensures var ts := FindValues(b, path, 0, b);
      Pure(inner) && |ts| != 1 ==>
      Eval(Nested(path, inner, query), b, k, o, h) ==
        Sync(if Inclusive(query) then forall i | 0 <= i < |ts| :: Eval(inner, ts[i].value, ts[i].key, ts[i].parent, h) == Sync(true)
             else exists i | 0 <= i < |ts| :: Eval(inner, ts[i].value, ts[i].key, ts[i].parent, h) == Sync(true))
  {
    var ts := FindValues(b, path, 0, b);
    var rs := EvalAt(Nested(path, inner, query), ts, h);
    EvalNested(path, inner, query, b, k, o, h);
    AggregateMeaning(rs, Inclusive(query));
    if Pure(inner) && |ts| != 1 {
      AtSeveral(Nested(path, inner, query), ts, h, Inclusive(query));
    }
  }

  /** Over several (or no) locations, with a query that answers synchronously,
      the aggregate is the conjunction or the disjunction of the answers. */
  lemma AtSeveral(v: Validator, ts: seq<Found>, h: Host, inclusive: bool)
    requires v.Nested? && Pure(v.inner) && |ts| != 1
    ensures Aggregate(EvalAt(v, ts, h), inclusive) ==
      Sync(if inclusive then forall i | 0 <= i < |ts| :: Eval(v.inner, ts[i].value, ts[i].key, ts[i].parent, h) == Sync(true)
           else exists i | 0 <= i < |ts| :: Eval(v.inner, ts[i].value, ts[i].key, ts[i].parent, h) == Sync(true))
  {
    var rs := EvalAt(v, ts, h);
    AggregateMeaning(rs, inclusive);
    assert forall i | 0 <= i < |rs| :: !rs[i].Threw? by {
      forall i | 0 <= i < |rs| ensures !rs[i].Threw? {
        PureIsSync(v.inner, ts[i].value, ts[i].key, ts[i].parent, h);
      }
    }
  }
}

=== FILE: scenarios.dfy ===
/** Field-path queries over documents holding arrays: how the locations a
    path resolves to are combined. */
module Scenarios {
  import opened Values
  import opened Errors
  import opened Comparison
  import opened MaybeAsync
  import opened Equality
  import opened Paths
  import opened Validators
  import opened Compiler
  import opened Properties
  import opened Operators

  /** A key with a dot and no leading `$` compiles to a field validator over
      its segments, holding the compiled query of its value. */
  lemma DottedFieldQuery(key: string, a: Value, opts: Options)
    requires '.' in key && key[0] != '$' && key !in opts.custom
    ensures Compile(a, opts).Ok? ==> Compile(Q(key, a), opts) == Ok(Nested(Split(key), Compile(a, opts).value, a))
    ensures Compile(a, opts).Err? ==> Compile(Q(key, a), opts) == Err(Compile(a, opts).error)
  {
    var fs := [Field(key, a)];
    assert !IsExactObject(Q(key, a)) by {
      assert AllKeys(Q(key, a)) == FieldKeys(fs);
      assert FieldKeys(fs)[0] == key;
      assert Special(key);
    }
    assert key !in BuiltIns by {
      assert forall b | b in BuiltIns :: b[0] == '$';
    }
    assert Comparable(Q(key, a)) == Q(key, a);
    assert Vanilla(Q(key, a)) by {
      assert KeySet(fs) == {key};
      var c := "constructor";
      assert forall i | 0 <= i < |c| :: c[i] != '.';
    }
    assert fs[1..] == [];
    assert CompileKeys(fs, fs[1..], opts) == Ok([]);
    var r := CompileKey(fs, key, a, opts);
    if r.Ok? {
      assert r.value == Nested(Split(key), Compile(a, opts).value, a);
      assert CompileKeys(fs, fs, opts) == Ok([r.value] + []);
    } else {
      assert CompileKeys(fs, fs, opts) == Err(r.error);
    }
  }

  /** The path `g.f`, with neither segment numeric, applied to a document whose
      field `g` holds an array of objects:
      the inner query is tested on field `f` of every element, each element
      being the parent, and the answers are OR-ed, or AND-ed when the field's
      query has a defined `$ne`. An empty array gives that flag itself. */
  lemma FieldOverArrayOfObjects(g: string, f: string, fs: seq<Field>, es: seq<Value>,
                                inner: Validator, query: Value, k: Key, o: Value, h: Host)
    requires !IsNumericSegment(f)
    requires Lookup(fs, g) == Arr(es) && !IsNumericSegment(g)
    requires forall i | 0 <= i < |es| :: es[i].Obj?
    requires Pure(inner)
    ensures Eval(Nested([g, f], inner, query), Obj(fs), k, o, h) ==
      Sync(if Inclusive(query) then forall i | 0 <= i < |es| :: Eval(inner, Get(es[i], f), Prop(f), es[i], h) == Sync(true)
           else exists i | 0 <= i < |es| :: Eval(inner, Get(es[i], f), Prop(f), es[i], h) == Sync(true))
  {
    if |es| == 1 {
      FieldOverOneObject(g, f, fs, es[0], inner, query, k, o, h);
    } else {
      FieldOfEachElement(g, f, fs, es);
      NestedMeaning([g, f], inner, query, Obj(fs), k, o, h);
    }
  }

  /** The one-element case: the only location's answer is the aggregate,
      and it is synchronous, so OR-ing or AND-ing it changes nothing. */
  lemma FieldOverOneObject(g: string, f: string, fs: seq<Field>, e: Value,
                           inner: Validator, query: Value, k: Key, o: Value, h: Host)
    requires !IsNumericSegment(f)
    requires Lookup(fs, g) == Arr([e]) && !IsNumericSegment(g) && e.Obj?
    requires Pure(inner)
    ensures Eval(Nested([g, f], inner, query), Obj(fs), k, o, h) == Eval(inner, Get(e, f), Prop(f), e, h)
    ensures Eval(inner, Get(e, f), Prop(f), e, h).Sync?
  {
    FieldOfEachElement(g, f, fs, [e]);
    NestedMeaning([g, f], inner, query, Obj(fs), k, o, h);
    PureIsSync(inner, Get(e, f), Prop(f), e, h);
  }

  /** The locations of `g.f` in such a document: field `f` of each element. */
  lemma FieldOfEachElement(g: string, f: string, fs: seq<Field>, es: seq<Value>)
    requires !IsNumericSegment(f)
    requires Lookup(fs, g) == Arr(es) && !IsNumericSegment(g)
    requires forall i | 0 <= i < |es| :: es[i].Obj?
    ensures var ts := FindValues(Obj(fs), [g, f], 0, Obj(fs));
      |ts| == |es| && forall i | 0 <= i < |es| :: ts[i] == Found(Get(es[i], f), Prop(f), es[i])
  {
    var doc := Obj(fs);
    assert FindValues(doc, [g, f], 0, doc) == FindValues(Arr(es), [g, f], 1, doc);
    LastSegmentOverObjects(es, [g, f], doc);
  }

  lemma PlainFieldSegments()
    ensures Lookup([Field("a", Arr([]))], "a") == Arr([])
    ensures !IsNumericSegment("a") && !IsNumericSegment("b")
  {
    assert !IsDigit("a"[0]);
    assert !IsDigit("b"[0]);
  }

  /** The key `a.b` splits into the segments `a` and `b`. */
  lemma SplitAB()
    ensures Split("a.b") == ["a", "b"]
  {
    assert Join(["a", "b"]) == "a.b";
    SplitJoin(["a", "b"]);
  }

  /** So `{"a.b": x}`, `x` not an object, compiles to the `$eq` test of `x`
      at `a.b`, and matches `{a: [...]}` exactly when some element's `b`
      passes that test (for `x` null: is null or missing); over an empty
      array it fails. */
  lemma EqAcrossArray(es: seq<Value>, x: Value, opts: Options, h: Host, k: Key, o: Value)
    requires forall i | 0 <= i < |es| :: es[i].Obj? && !Get(es[i], "b").Arr?
    requires !x.Obj? && "a.b" !in opts.custom
    ensures Compile(Q("a.b", x), opts) == Ok(Nested(["a", "b"], Any(EqTo(PrepareEq(x))), x))
    ensures Eval(Compile(Q("a.b", x), opts).value, Obj([Field("a", Arr(es))]), k, o, h) ==
      Sync(exists i | 0 <= i < |es| :: EqHolds(PrepareEq(x), Get(es[i], "b")))
    ensures |es| == 0 ==> Eval(Compile(Q("a.b", x), opts).value, Obj([Field("a", Arr(es))]), k, o, h) == Sync(false)
  {
    DottedFieldQuery("a.b", x, opts);
    LiteralQueryIsEq(x, opts);
    EqCompiles(x, opts);
    SplitAB();
    var fs := [Field("a", Arr(es))];
    assert Lookup(fs, "a") == Arr(es);
    PlainFieldSegments();
    FieldOverArrayOfObjects("a", "b", fs, es, Any(EqTo(PrepareEq(x))), x, k, o, h);
  }

  /** While `{"a.b": {$ne: x}}`, `x` defined, compiles to the `$ne` test of
      `x` at `a.b`, and matches only when no element's `b` passes the `$eq`
      test of `x`; it holds over an empty array. */
  lemma NeAcrossArray(es: seq<Value>, x: Value, opts: Options, h: Host, k: Key, o: Value)
    requires forall i | 0 <= i < |es| :: es[i].Obj? && !Get(es[i], "b").Arr?
    requires !x.Undefined? && "a.b" !in opts.custom
    ensures Compile(Q("a.b", Q("$ne", x)), opts) == Ok(Nested(["a", "b"], NotEq(PrepareEq(x)), Q("$ne", x)))
    ensures Eval(Compile(Q("a.b", Q("$ne", x)), opts).value, Obj([Field("a", Arr(es))]), k, o, h) ==
      Sync(forall i | 0 <= i < |es| :: !EqHolds(PrepareEq(x), Get(es[i], "b")))
    ensures |es| == 0 ==> Eval(Compile(Q("a.b", Q("$ne", x)), opts).value, Obj([Field("a", Arr(es))]), k, o, h) == Sync(true)
  {
    DottedFieldQuery("a.b", Q("$ne", x), opts);
    NeCompiles(x, opts);
    SplitAB();
    var fs := [Field("a", Arr(es))];
    assert Lookup(fs, "a") == Arr(es);
    PlainFieldSegments();
    assert Inclusive(Q("$ne", x));
    FieldOverArrayOfObjects("a", "b", fs, es, NotEq(PrepareEq(x)), Q("$ne", x), k, o, h);
  }

  /** `{"a.b": null}` matches `{a: [{c: 1}]}`: the element lacks `b`. */
  lemma NullAcrossArray(opts: Options, h: Host, k: Key, o: Value)
    requires "a.b" !in opts.custom
    ensures Compile(Q("a.b", Null), opts) == Ok(Nested(["a", "b"], Any(EqTo(NullOrUndefined)), Null))
    ensures Eval(Nested(["a", "b"], Any(EqTo(NullOrUndefined)), Null), Obj([Field("a", Arr([Obj([Field("c", Num(1))])]))]), k, o, h) == Sync(true)
  {
    var e := Obj([Field("c", Num(1))]);
    assert Get(e, "b") == Undefined;
    EqAcrossArray([e], Null, opts, h, k, o);
    assert EqHolds(PrepareEq(Null), Get([e][0], "b"));
  }

  /** A numeric segment indexes an array directly instead of fanning out:
      `{"foo.0": x}` tests the first element of `foo` alone. */
  lemma NumericSegmentIndexes(es: seq<Value>, inner: Validator, query: Value, k: Key, o: Value, h: Host)
    requires |es| > 0
    ensures var doc := Obj([Field("foo", Arr(es))]);
      Eval(Nested(["foo", "0"], inner, query), doc, k, o, h) == Eval(inner, es[0], Prop("0"), Arr(es), h)
  {
    var doc := Obj([Field("foo", Arr(es))]);
    assert IsNumericSegment("0");
    assert ArrayIndex("0") == Some(0);
    assert Get(Arr(es), "0") == es[0];
    assert FindValues(doc, ["foo", "0"], 0, doc) == FindValues(Arr(es), ["foo", "0"], 1, doc);
    assert FindValues(Arr(es), ["foo", "0"], 1, doc) == FindValues(es[0], ["foo", "0"], 2, Arr(es));
    NestedMeaning(["foo", "0"], inner, query, doc, k, o, h);
  }
}

=== FILE: typemap.dfy ===
/** The `$type` operator: the alias table `typemap`, the preparation of a
    `$type` argument, and the type test itself. Two versions of preparation and
    test are given: the code as written, and the corrected one the rest of the
    model uses (see the findings in README.md). */
module TypeAliases {
  import opened Values
  import opened Errors

  /** The type names the `$type` switch is written against. */
  datatype TypeName =
    | TNumber | TString | TObject | TArray | TBinData | TObjectId | TDate
    | TNull | TRegex | TInt | TLong | TBoolean | TFunction

  function NameText(t: TypeName): string {
    match t
    case TNumber => "number"
    case TString => "string"
    case TObject => "object"
    case TArray => "array"
    case TBinData => "binData"
    case TObjectId => "objectId"
    case TDate => "date"
    case TNull => "null"
    case TRegex => "regex"
    case TInt => "int"
    case TLong => "long"
    case TBoolean => "boolean"
    case TFunction => "function"
  }

  /** The string keys of `typemap`: the verbatim names and three synonyms. */
  const Aliases: map<string, TypeName> := map[
    "number" := TNumber, "string" := TString, "object" := TObject,
    "array" := TArray, "binData" := TBinData, "objectId" := TObjectId,
    "date" := TDate, "null" := TNull, "regex" := TRegex, "int" := TInt,
    "long" := TLong,
    "double" := TNumber, "bool" := TBoolean, "javascript" := TFunction]

  /** The numeric (BSON type code) keys of `typemap`. */
  const Codes: map<int, TypeName> := map[
    1 := TNumber, 2 := TString, 3 := TObject, 4 := TArray, 5 := TBinData,
    7 := TObjectId, 8 := TBoolean, 9 := TDate, 10 := TNull, 11 := TRegex,
    13 := TFunction, 16 := TInt, 18 := TLong]

  /** A prepared `$type` argument: a resolved type name, or a non-string
      argument kept as it is (the engine treats it as a constructor). */
  datatype TypeSpec = Named(t: TypeName) | Raw(param: Value)

  /** `prepare.$type` as written: strings are resolved through the table,
      an unknown one is a compile-time error, and anything else, numeric
      codes included, is passed through untouched. */
  function PrepareTypeAsWritten(param: Value): (r: Result<TypeSpec>)
    ensures param.Str? ==> (r.Ok? <==> param.s in Aliases)
    ensures param.Str? && param.s in Aliases ==> r == Ok(Named(Aliases[param.s]))
    ensures r.Err? ==> r.error == UnknownTypeAlias(param)
    ensures !param.Str? ==> r == Ok(Raw(param))
  {
    if !param.Str? then Ok(Raw(param))
    else if param.s in Aliases then Ok(Named(Aliases[param.s]))
    else Err(UnknownTypeAlias(param))
  }

  /** `prepare.$type` as evidently intended: numeric codes are resolved
      through the table too, and an unknown code is reported like an unknown
      alias. */
  function PrepareType(param: Value): (r: Result<TypeSpec>)
    ensures param.Str? ==> (r.Ok? <==> param.s in Aliases)
    ensures param.Num? ==> (r.Ok? <==> param.n in Codes)
    ensures param.Str? && param.s in Aliases ==> r == Ok(Named(Aliases[param.s]))
    ensures param.Num? && param.n in Codes ==> r == Ok(Named(Codes[param.n]))
    ensures r.Err? ==> r.error == UnknownTypeAlias(param)
    ensures !param.Str? && !param.Num? ==> r == Ok(Raw(param))
  {
    match param
    case Str(s) => if s in Aliases then Ok(Named(Aliases[s])) else Err(UnknownTypeAlias(param))
    case Num(n) => if n in Codes then Ok(Named(Codes[n])) else Err(UnknownTypeAlias(param))
    case _ => Ok(Raw(param))
  }

  const Int32Min: int := -0x8000_0000
  const Int32Max: int := 0x7fff_ffff
  const MaxSafeInteger: int := 0x1f_ffff_ffff_ffff

  /** The cases of the `$type` switch the two versions share. Host-specific
      kinds (regular expressions, ObjectIDs, buffers, functions) do not occur
      among the model's values. */
  predicate HasType(t: TypeName, v: Value) {
    match t
    case TNull => v.Null?
    case TObject => Vanilla(v)
    case TRegex => false
    case TArray => v.Arr?
    case TNumber => v.Num?
    case TBoolean => v.Bool?
    case TString => v.Str?
    case TInt => v.Num? && Int32Min <= v.n <= Int32Max
    case TLong => v.Num? && -MaxSafeInteger <= v.n <= MaxSafeInteger
    case TDate => v.Date?
    case TObjectId => false
    case TBinData => false
    case TFunction => false
  }

  /** The non-string branch: `value !== undefined && value instanceof param`,
      where `instanceof` with a right-hand side that is not callable throws. */
  function RawTest(param: Value, v: Value): (r: Result<bool>)
    ensures r == Ok(false) <==> v.Undefined?
    ensures r.Err? ==> r.error == TypeError
  {
    if v.Undefined? then Ok(false) else Err(TypeError)
  }

  /** `expressions.$type` as written: the switch has no case for `function`,
      so that name reaches the internal-error default. */
  function TypeTestAsWritten(spec: TypeSpec, v: Value): (r: Result<bool>)
    ensures spec.Named? && spec.t != TFunction ==> r == Ok(HasType(spec.t, v))
    ensures spec == Named(TFunction) ==> r == Err(InternalUnknownType("function"))
  {
    match spec
    case Named(t) => if t == TFunction then Err(InternalUnknownType(NameText(t))) else Ok(HasType(t, v))
    case Raw(p) => RawTest(p, v)
  }

  /** `expressions.$type` as evidently intended: `function` is a type no
      model value has. */
  function TypeTest(spec: TypeSpec, v: Value): (r: Result<bool>)
    ensures spec.Named? ==> r == Ok(HasType(spec.t, v))
    ensures spec.Raw? ==> r == RawTest(spec.param, v)
  {
    match spec
    case Named(t) => Ok(HasType(t, v))
    case Raw(p) => RawTest(p, v)
  }

  /** `{$type: "object"}` accepts plain objects only: an own `constructor`
      key makes `isVanillaObject` false, and arrays and dates are not plain. */
  lemma ObjectTypeIsVanilla(v: Value)
    ensures PrepareType(Str("object")) == Ok(Named(TObject))
    ensures TypeTest(Named(TObject), v) == Ok(v.Obj? && "constructor" !in KeySet(v.fields))
  {
    assert "object" in Aliases;
  }

  /** For the three `typeof` names the test agrees with JavaScript `typeof`,
      and `double` and `bool` are synonyms of `number` and `boolean`. */
  lemma TypeofNames(v: Value)
    ensures forall t | t in {TNumber, TBoolean, TString} :: HasType(t, v) <==> TypeOf(v) == NameText(t)
    ensures Aliases["double"] == TNumber && Aliases["bool"] == TBoolean
  {
  }

  /** Every verbatim alias names itself. */
  lemma VerbatimAliases()
    ensures forall t | t != TBoolean && t != TFunction :: NameText(t) in Aliases && Aliases[NameText(t)] == t
  {
  }

  /** A string the table does not know is rejected when the query is
      compiled, with the alias in the message. */
  lemma UnknownAliasRejected()
    ensures PrepareType(Str("beep")).Err?
    ensures Message(PrepareType(Str("beep")).error) == "unknown type alias: beep"
  {
  }

  /** As written, a numeric code is never looked up: `{$type: 2}` reaches
      `instanceof 2` and throws on every defined value, where the table says
      it means `string`. */
  lemma NumericCodeAsWritten()
    ensures PrepareTypeAsWritten(Num(2)) == Ok(Raw(Num(2)))
    ensures TypeTestAsWritten(PrepareTypeAsWritten(Num(2)).value, Str("x")) == Err(TypeError)
    ensures PrepareType(Num(2)) == Ok(Named(TString))
    ensures TypeTest(PrepareType(Num(2)).value, Str("x")) == Ok(true)
  {
  }

  /** Corrected preparation resolves every code of the table to the type the
      table names, and then tests for that type. */
  lemma CodesResolve(code: int, v: Value)
    requires code in Codes
    ensures PrepareType(Num(code)) == Ok(Named(Codes[code]))
    ensures TypeTest(PrepareType(Num(code)).value, v) == Ok(HasType(Codes[code], v))
  {
  }

  /** As written, the alias `javascript` resolves to `function`, which the
      switch does not handle: every test then raises the internal error. */
  lemma JavascriptAliasAsWritten(v: Value)
    ensures PrepareTypeAsWritten(Str("javascript")) == Ok(Named(TFunction))
    ensures TypeTestAsWritten(PrepareTypeAsWritten(Str("javascript")).value, v) == Err(InternalUnknownType("function"))
  {
  }

  /** Corrected, every alias of the table yields a test that never raises. */
  lemma AliasesNeverRaise(alias: string, v: Value)
    requires alias in Aliases
    ensures PrepareType(Str(alias)).Ok?
    ensures TypeTest(PrepareType(Str(alias)).value, v).Ok?
  {
  }
}

=== FILE: validators.dfy ===
/** Compiled validators and what they answer for a document value. A
    validator receives the value under test `b`, the key it was found under `k`
    and its parent `o`, as `createValidator` passes them on. */
module Validators {
  import opened Values
  import opened Errors
  import opened Comparison
  import opened MaybeAsync
  import opened Equality
  import opened Paths
  import opened TypeAliases

  /** What the engine calls but does not define: the host regular-expression
      engine, `$where` functions and caller-supplied operators. */
  datatype Host = Host(
    /** `new RegExp(pattern, flags).test(s)`. */
    regexTest: (Value, Value, string) -> bool,
    /** The `$where` function (or compiled source) applied to `b`, `k`, `o`. */
    runWhere: (Value, Value, Key, Value) -> Res,
    /** The caller's operator `name` applied to its parameter and `b`, `k`, `o`. */
    runCustom: (string, Value, Value, Key, Value) -> Res)

  /** The equality tests `prepare.$eq` builds from a parameter. */
  datatype EqTest =
    | EmptyArray
    | NullOrUndefined
    | Equals(target: Value)

  /** The tests `or` broadcasts over the elements of an array. */
  datatype ElemTest =
    | EqTo(eq: EqTest)
    | Above(bound: Value)
    | AtLeast(bound: Value)
    | Below(bound: Value)
    | AtMost(bound: Value)
    | ModOf(param: Value)
    | Matches(pattern: Value, flags: Value)

  datatype Validator =
      /** The exact-object fast path: `isEqual(query, b)`. */
    | Exact(query: Value)
      /** `$eq`, `$gt`, `$gte`, `$lt`, `$lte`, `$mod`, `$regex`. */
    | Any(test: ElemTest)
      /** `$ne`. */
    | NotEq(eq: EqTest)
      /** `$in` with its (normalised) parameter and each element compiled. */
    | In(params: Value, entries: seq<Result<Validator>>)
      /** `$not`, and `$nin` as the negation of `$in`. */
    | Not(inner: Validator)
    | TypeIs(spec: TypeSpec)
      /** `$and`, `$all`, and several sibling keys. */
    | AllOf(parts: seq<Validator>)
      /** `$or`. */
    | AnyOf(parts: seq<Validator>)
      /** `$nor`. */
    | NoneOf(parts: seq<Validator>)
    | SizeIs(size: Value)
    | Where(fn: Value)
    | ElemMatch(inner: Validator)
    | Exists(want: bool)
    | Custom(name: string, param: Value)
      /** A field path with the validator of its query. */
    | Nested(path: seq<string>, inner: Validator, query: Value)

  /** The function `prepare.$eq` returns. Regular-expression and function
      parameters do not occur among the model's values. */
  function PrepareEq(a: Value): (t: EqTest)
    ensures t == EmptyArray <==> a == Arr([])
    ensures t == NullOrUndefined <==> a.Null?
    ensures t.Equals? ==> t.target == Comparable(a)
  {
    if a.Arr? && |a.elems| == 0 then EmptyArray
    else if a.Null? then NullOrUndefined
    else Equals(Comparable(a))
  }

  predicate EqHolds(t: EqTest, b: Value) {
    match t
    case EmptyArray => b == Arr([])
    case NullOrUndefined => b.Nullish()
    case Equals(target) => Compare(Comparable(b), target) == Equal
  }

  /** `Number(s)` for the strings the model covers: digit strings (the empty
      string reads as 0). */
  function StrNumber(s: string): Option<int> {
    if AllDigits(s) then Some(DigitsValue(s)) else None
  }

  /** JavaScript `ToNumber` as `%` applies it; `None` stands for NaN. An
      array converts through its string, `join(",")`. */
  function NumberOf(v: Value): Option<int> {
    match v
    case Null => Some(0)
    case Bool(b) => Some(if b then 1 else 0)
    case Num(n) => Some(n)
    case Str(s) => StrNumber(s)
    case Date(ms) => Some(ms)
    case Arr(_) => JoinedNumber(v)
    case _ => None
  }

  /** `Number(String(v))` where `v` is printed as an array element: null and
      undefined print empty (and so read as 0), an array prints its elements
      joined by commas (so two or more never read as a number), and booleans,
      dates and plain objects print as text that is not a number. */
  function JoinedNumber(v: Value): Option<int>
    decreases v
  {
    match v
    case Undefined => Some(0)
    case Null => Some(0)
    case Num(n) => Some(n)
    case Str(s) => StrNumber(s)
    case Arr(es) => if |es| == 0 then Some(0) else if |es| == 1 then JoinedNumber(es[0]) else None
    case _ => None
  }

  /** `x == v` for a number `x`: `v` converts to a number, an array through
      its string; null, undefined, dates and plain objects are never equal. */
  predicate LooseEqualsNumber(x: int, v: Value) {
    match v
    case Num(n) => x == n
    case Bool(b) => x == (if b then 1 else 0)
    case Str(s) => StrNumber(s) == Some(x)
    case Arr(_) => JoinedNumber(v) == Some(x)
    case _ => false
  }

  /** An array converts through its string: the empty array and an array of
      one nullish element give 0, a one-element array of a number, a string
      or an array converts as its element does, one of a boolean, a date or
      a plain object gives no number, and so does an array of two or more
      elements. */
  lemma ArrayNumberOfElements(es: seq<Value>)
    ensures |es| == 0 ==> NumberOf(Arr(es)) == Some(0)
    ensures |es| == 1 && es[0].Nullish() ==> NumberOf(Arr(es)) == Some(0)
    ensures |es| == 1 && (es[0].Num? || es[0].Str? || es[0].Arr?) ==> NumberOf(Arr(es)) == NumberOf(es[0])
    ensures |es| == 1 && (es[0].Bool? || es[0].Date? || es[0].Obj?) ==> NumberOf(Arr(es)) == None
    ensures |es| >= 2 ==> NumberOf(Arr(es)) == None
    ensures forall x :: LooseEqualsNumber(x, Arr(es)) <==> NumberOf(Arr(es)) == Some(x)
  {
    assert NumberOf(Arr(es)) == JoinedNumber(Arr(es));
    if |es| == 1 {
      assert JoinedNumber(Arr(es)) == JoinedNumber(es[0]);
      if es[0].Arr? {
        assert NumberOf(es[0]) == JoinedNumber(es[0]);
      } else if es[0].Str? {
        assert NumberOf(es[0]) == JoinedNumber(es[0]);
      }
    }
    forall x ensures LooseEqualsNumber(x, Arr(es)) <==> NumberOf(Arr(es)) == Some(x) {
    }
  }

  /** JavaScript `x % d`: the remainder takes the sign of the dividend. */
  function TruncRem(x: int, d: int): (r: int)
    requires d != 0
    ensures x >= 0 ==> 0 <= r < (if d > 0 then d else -d)
    ensures x < 0 ==> (if d > 0 then -d else d) < r <= 0
  {
    var m := if d > 0 then d else -d;
    if x >= 0 then x % m else -((-x) % m)
  }

  function Tested(r: Result<bool>): Res {
    if r.Ok? then Sync(r.value) else Threw(r.error)
  }

  /** The test applied to one candidate, with the broadcast parameter `a`. */
  function TestOne(t: ElemTest, x: Value, h: Host): (r: Res)
    ensures !t.ModOf? ==> r.Sync?
    ensures t.ModOf? ==> (r.Threw? <==> t.param.Nullish())
  {
    match t
    case EqTo(eq) => Sync(EqHolds(eq, x))
    case Above(a) => Sync(Compare(Comparable(x), a) == Greater)
    case AtLeast(a) => Sync(Compare(Comparable(x), a) in {Greater, Equal})
    case Below(a) => Sync(Compare(Comparable(x), a) == Less)
    case AtMost(a) => Sync(Compare(Comparable(x), a) in {Less, Equal})
    case ModOf(a) =>
      if a.Nullish() then Threw(TypeError)
      else
        var d := NumberOf(Get(a, "0"));
        var n := NumberOf(x);
        Sync(d.Some? && n.Some? && d.value != 0 && LooseEqualsNumber(TruncRem(n.value, d.value), Get(a, "1")))
    case Matches(p, f) => Sync(x.Str? && h.regexTest(p, f, x.s))
  }

  /** The `or` wrapper: a non-empty array matches when some element does;
      anything else, the empty array included, is tested itself. */
  function Broadcast(t: ElemTest, b: Value, h: Host): (r: Res)
    ensures !(b.Arr? && |b.elems| > 0) ==> r == TestOne(t, b, h)
    ensures b.Arr? && |b.elems| > 0 && !(t.ModOf? && t.param.Nullish()) ==>
      r == Sync(exists i | 0 <= i < |b.elems| :: TestOne(t, b.elems[i], h) == Sync(true))
    ensures !(t.ModOf? && t.param.Nullish()) ==> r.Sync?
    ensures t.ModOf? && t.param.Nullish() ==> r == Threw(TypeError)
  {
    if b.Arr? && |b.elems| > 0 then
      var rs := seq(|b.elems|, i requires 0 <= i < |b.elems| => TestOne(t, b.elems[i], h));
      if !(t.ModOf? && t.param.Nullish()) then
        SomeOfSync(rs);
        assert forall j | 0 <= j < |rs| :: rs[j].b == (TestOne(t, b.elems[j], h) == Sync(true));
        SomeMaybe(rs)
      else
        assert FirstSomeDecisive(rs, 0);
        SomeMaybeMeaning(rs);
        SomeMaybe(rs)
    else TestOne(t, b, h)
  }

  /** The `and` wrapper around `!eq(b)`: a non-empty array passes when no
      element is equal; anything else is tested itself. */
  function NotEqual(t: EqTest, b: Value): (r: Res)
    ensures !(b.Arr? && |b.elems| > 0) ==> r == Sync(!EqHolds(t, b))
    ensures b.Arr? && |b.elems| > 0 ==> r == Sync(forall i | 0 <= i < |b.elems| :: !EqHolds(t, b.elems[i]))
  {
    if b.Arr? && |b.elems| > 0 then
      var rs := seq(|b.elems|, i requires 0 <= i < |b.elems| => Sync(!EqHolds(t, b.elems[i])));
      EveryOfSync(rs);
      assert forall j | 0 <= j < |rs| :: rs[j].b == !EqHolds(t, b.elems[j]);
      EveryMaybe(rs)
    else Sync(!EqHolds(t, b))
  }

  /** `String(v) === "null"` for a value in an `$in` parameter. */
  predicate PrintsAsNull(v: Value) {
    v.Null? || JoinsToNull(v)
  }

  /** `String(v) === "null"` where `null` itself would print empty, as
      array elements do. */
  predicate JoinsToNull(v: Value) {
    match v
    case Str(s) => s == "null"
    case Arr(es) => |es| == 1 && JoinsToNull(es[0])
    case _ => false
  }

  /** `$in` once the per-entry results are known: `entryResults[i]` is what the
      query `a[i]` answers for `b` (already mapped through the
      `[object Object]` check). */
  function InDecide(a: Value, b: Value, entryResults: seq<Res>): (r: Res)
    ensures b.Arr? && a.Arr? ==>
      r == Sync(exists i, j | 0 <= i < |b.elems| && 0 <= j < |a.elems| :: StrictEq(a.elems[j], Comparable(b.elems[i])))
    ensures b.Arr? && a.Nullish() ==> r == Sync(false)
    ensures !a.Arr? && !(b.Arr? && a.Nullish()) ==> r == Threw(TypeError)
    ensures !b.Arr? && a.Arr? && b.Undefined? && (exists j | 0 <= j < |a.elems| :: a.elems[j].Nullish()) ==> r == Sync(true)
    ensures !b.Arr? && a.Arr? && (exists j | 0 <= j < |a.elems| :: StrictEq(a.elems[j], Comparable(b))) ==>
      r.Threw? || forall env: nat -> bool :: Eventually(r, env)
  {
    if b.Arr? then
      match a
      case Arr(ps) =>
        Sync(exists i, j | 0 <= i < |b.elems| && 0 <= j < |ps| :: StrictEq(ps[j], Comparable(b.elems[i])))
      case Undefined => Sync(false)
      case Null => Sync(false)
      case _ => Threw(TypeError)
    else if !a.Arr? then Threw(TypeError)
    else
      var ps := a.elems;
      var cb := Comparable(b);
      if b.Null? && exists j | 0 <= j < |ps| :: PrintsAsNull(ps[j]) then Sync(true)
      else if cb.Undefined? && exists j | 0 <= j < |ps| :: ps[j].Nullish() then Sync(true)
      else
        var found := exists j | 0 <= j < |ps| :: StrictEq(ps[j], cb);
        ThenMaybe(SomeMaybe(entryResults), if found then Always(true) else Identity)
  }

  /** The continuation `$in` chains onto each entry's answer: a truthy answer
      does not count when `b` is a plain object. Each entry is called with its
      index as key and the parameter as parent; an entry that failed to
      compile raises its error when it is reached. */
  function EntryCheck(b: Value): Cont {
    if b.Obj? then Always(false) else Identity
  }

  /** A validator that answers synchronously and raises nothing, whatever the
      host does: it calls no host function and raises no TypeError. */
  predicate Pure(v: Validator) {
    match v
    case Exact(_) => true
    case Any(t) => !(t.ModOf? && t.param.Nullish())
    case NotEq(_) => true
    case Not(i) => Pure(i)
    case TypeIs(spec) => spec.Named?
    case AllOf(vs) => forall i | 0 <= i < |vs| :: Pure(vs[i])
    case AnyOf(vs) => forall i | 0 <= i < |vs| :: Pure(vs[i])
    case NoneOf(vs) => forall i | 0 <= i < |vs| :: Pure(vs[i])
    case SizeIs(_) => true
    case ElemMatch(i) => Pure(i)
    case Nested(_, i, _) => Pure(i)
    case _ => false
  }

  /** `typeof query.$ne !== 'undefined'` for a field's own query. */
  predicate Inclusive(query: Value) {
    query.Obj? && Lookup(query.fields, "$ne") != Undefined
  }

  /** The loop of `nestedValidator` over several locations: exceptions
      propagate in order, a deferred result counts as false, and the answers
      are AND-ed when `inclusive` and OR-ed otherwise, starting from
      `inclusive`. */
  function Fold(rs: seq<Res>, inclusive: bool, acc: bool): (r: Res)
    ensures (forall i | 0 <= i < |rs| :: !rs[i].Threw?) ==>
      r == Sync(if inclusive then acc && forall i | 0 <= i < |rs| :: rs[i] == Sync(true)
                else acc || exists i | 0 <= i < |rs| :: rs[i] == Sync(true))
    ensures forall k | 0 <= k < |rs| && rs[k].Threw? && (forall j | 0 <= j < k :: !rs[j].Threw?) :: r == rs[k]
    decreases |rs|
  {
    if |rs| == 0 then Sync(acc)
    else if rs[0].Threw? then rs[0]
    else
      var acc' := if inclusive then acc && rs[0] == Sync(true) else acc || rs[0] == Sync(true);
      var r := Fold(rs[1..], inclusive, acc');
      assert forall k | 1 <= k < |rs| && rs[k].Threw? && (forall j | 0 <= j < k :: !rs[j].Threw?) ::
        rs[1..][k - 1] == rs[k] && forall j | 0 <= j < k - 1 :: !rs[1..][j].Threw?;
      assert (exists i | 0 <= i < |rs| :: rs[i] == Sync(true)) <==> rs[0] == Sync(true) || exists i | 0 <= i < |rs[1..]| :: rs[1..][i] == Sync(true) by {
        if exists i | 0 <= i < |rs| :: rs[i] == Sync(true) {
          var i :| 0 <= i < |rs| && rs[i] == Sync(true);
          if i > 0 {
            assert rs[1..][i - 1] == Sync(true);
          }
        }
      }
      r
  }

  /** `nestedValidator` once each location's answer is known. */
  function Aggregate(rs: seq<Res>, inclusive: bool): Res {
    if |rs| == 1 then rs[0] else Fold(rs, inclusive, inclusive)
  }

  /** One location gives its own answer; several (or none) give the
      conjunction, or the disjunction, of answers that raised nothing. */
  lemma AggregateMeaning(rs: seq<Res>, inclusive: bool)
    ensures |rs| == 1 ==> Aggregate(rs, inclusive) == rs[0]
    ensures |rs| != 1 && (forall i | 0 <= i < |rs| :: !rs[i].Threw?) ==>
      Aggregate(rs, inclusive) == Sync(if inclusive then forall i | 0 <= i < |rs| :: rs[i] == Sync(true)
                                       else exists i | 0 <= i < |rs| :: rs[i] == Sync(true))
    ensures |rs| == 0 ==> Aggregate(rs, inclusive) == Sync(inclusive)
  {
  }

  /** What validator `v` answers for value `b` found under key `k` in `o`. */
  function Eval(v: Validator, b: Value, k: Key, o: Value, h: Host): Res
    decreases v, 2
  {
    match v
    case Exact(q) => Sync(IsEqual(q, b))
    case Any(t) => Broadcast(t, b, h)
    case NotEq(t) => NotEqual(t, b)
    case In(a, entries) => InDecide(a, b, EntryResults(v, b, h))
    case Not(inner) => Negated(Eval(inner, b, k, o, h))
    case TypeIs(spec) => Tested(TypeTest(spec, b))
    case AllOf(vs) => EvalEvery(vs, b, k, o, h)
    case AnyOf(vs) => EvalSome(vs, b, k, o, h)
    case NoneOf(vs) => Negated(EvalSome(vs, b, k, o, h))
    case SizeIs(a) => Sync(Truthy(b) && StrictEq(a, Get(b, "length")))
    case Where(fn) => h.runWhere(fn, b, k, o)
    case ElemMatch(inner) =>
      if b.Arr? then EvalSomeElement(v, b.elems, h)
      else Eval(inner, b, k, o, h)
    case Exists(want) => if o.Nullish() then Threw(TypeError) else Sync(OwnKey(o, KeyName(k)) == want)
    case Custom(name, param) => h.runCustom(name, param, b, k, o)
    case Nested(path, inner, query) =>
      Aggregate(EvalAt(v, FindValues(b, path, 0, b), h), Inclusive(query))
  }

  // One case of `Eval` at a time: each call site that needs an unfolding
  // asks for exactly the one it needs.

  lemma EvalExists(want: bool, b: Value, k: Key, o: Value, h: Host)
    ensures Eval(Exists(want), b, k, o, h) == if o.Nullish() then Threw(TypeError) else Sync(OwnKey(o, KeyName(k)) == want)
  {
  }

  lemma EvalAny(t: ElemTest, b: Value, k: Key, o: Value, h: Host)
    ensures Eval(Any(t), b, k, o, h) == Broadcast(t, b, h)
  {
  }

  lemma EvalNotEq(t: EqTest, b: Value, k: Key, o: Value, h: Host)
    ensures Eval(NotEq(t), b, k, o, h) == NotEqual(t, b)
  {
  }

  lemma EvalSizeIs(a: Value, b: Value, k: Key, o: Value, h: Host)
    ensures Eval(SizeIs(a), b, k, o, h) == Sync(Truthy(b) && StrictEq(a, Get(b, "length")))
  {
  }

  lemma EvalNot(inner: Validator, b: Value, k: Key, o: Value, h: Host)
    ensures Eval(Not(inner), b, k, o, h) == Negated(Eval(inner, b, k, o, h))
  {
  }

  lemma EvalIn(v: Validator, b: Value, k: Key, o: Value, h: Host)
    requires v.In?
    ensures Eval(v, b, k, o, h) == InDecide(v.params, b, EntryResults(v, b, h))
  {
  }

  lemma EvalAllOf(vs: seq<Validator>, b: Value, k: Key, o: Value, h: Host)
    ensures Eval(AllOf(vs), b, k, o, h) == EvalEvery(vs, b, k, o, h)
  {
  }

  lemma EvalAnyOf(vs: seq<Validator>, b: Value, k: Key, o: Value, h: Host)
    ensures Eval(AnyOf(vs), b, k, o, h) == EvalSome(vs, b, k, o, h)
  {
  }

  lemma EvalNoneOf(vs: seq<Validator>, b: Value, k: Key, o: Value, h: Host)
    ensures Eval(NoneOf(vs), b, k, o, h) == Negated(EvalSome(vs, b, k, o, h))
  {
  }

  lemma EvalElemMatch(inner: Validator, es: seq<Value>, k: Key, o: Value, h: Host)
    ensures Eval(ElemMatch(inner), Arr(es), k, o, h) == EvalSomeElement(ElemMatch(inner), es, h)
  {
  }

  lemma EvalNested(path: seq<string>, inner: Validator, query: Value, b: Value, k: Key, o: Value, h: Host)
    ensures Eval(Nested(path, inner, query), b, k, o, h) ==
      Aggregate(EvalAt(Nested(path, inner, query), FindValues(b, path, 0, b), h), Inclusive(query))
  {
  }

  /** A validator that calls no host function and raises nothing answers
      synchronously, whatever it is given. */
  lemma {:induction false} PureIsSync(v: Validator, b: Value, k: Key, o: Value, h: Host)
    requires Pure(v)
    ensures Eval(v, b, k, o, h).Sync?
    decreases v, 1
  {
    match v
    case Not(inner) =>
      PureIsSync(inner, b, k, o, h);
    case AllOf(vs) =>
      EachIsSync(vs, b, k, o, h);
    case AnyOf(vs) =>
      EachIsSync(vs, b, k, o, h);
    case NoneOf(vs) =>
      EachIsSync(vs, b, k, o, h);
    case ElemMatch(inner) =>
      if b.Arr? {
        ElementsAreSync(v, b.elems, h);
      } else {
        PureIsSync(inner, b, k, o, h);
      }
    case Nested(path, inner, query) =>
      LocationsAreSync(v, FindValues(b, path, 0, b), h);
    case _ =>
  }

  lemma {:induction false} ElementsAreSync(v: Validator, es: seq<Value>, h: Host)
    requires v.ElemMatch? && Pure(v.inner)
    ensures EvalSomeElement(v, es, h).Sync?
    decreases v, 0
  {
    var rs := EvalElements(v, es, h);
    forall i | 0 <= i < |rs| ensures rs[i].Sync? {
      PureIsSync(v.inner, es[i], NoKey, Undefined, h);
    }
    SyncInSyncOut(rs);
  }

  lemma {:induction false} LocationsAreSync(v: Validator, ts: seq<Found>, h: Host)
    requires v.Nested? && Pure(v.inner)
    ensures Aggregate(EvalAt(v, ts, h), Inclusive(v.query)).Sync?
    decreases v, 0
  {
    var rs := EvalAt(v, ts, h);
    forall i | 0 <= i < |rs| ensures rs[i].Sync? {
      PureIsSync(v.inner, ts[i].value, ts[i].key, ts[i].parent, h);
    }
    AggregateMeaning(rs, Inclusive(v.query));
  }

  lemma {:induction false} EachIsSync(vs: seq<Validator>, b: Value, k: Key, o: Value, h: Host)
    requires forall i | 0 <= i < |vs| :: Pure(vs[i])
    ensures forall i | 0 <= i < |vs| :: Eval(vs[i], b, k, o, h).Sync?
    ensures EvalEvery(vs, b, k, o, h).Sync? && EvalSome(vs, b, k, o, h).Sync?
    decreases vs, 0
  {
    var rs := EvalEach(vs, b, k, o, h);
    forall i | 0 <= i < |vs| ensures rs[i].Sync? {
      PureIsSync(vs[i], b, k, o, h);
    }
    SyncInSyncOut(rs);
  }

  /** `$and`: the parts' answers combined by `maybeAsyncEvery`. */
  function EvalEvery(vs: seq<Validator>, b: Value, k: Key, o: Value, h: Host): Res
    decreases vs, 2
  {
    EveryMaybe(EvalEach(vs, b, k, o, h))
  }

  /** `$or`: the parts' answers combined by `maybeAsyncSome`. */
  function EvalSome(vs: seq<Validator>, b: Value, k: Key, o: Value, h: Host): Res
    decreases vs, 2
  {
    SomeMaybe(EvalEach(vs, b, k, o, h))
  }

  /** `$elemMatch` on an array: some element matches on its own. */
  function EvalSomeElement(v: Validator, es: seq<Value>, h: Host): Res
    requires v.ElemMatch?
    decreases v, 1
  {
    SomeMaybe(EvalElements(v, es, h))
  }

  /** Every validator of `vs` applied to the same value. */
  function EvalEach(vs: seq<Validator>, b: Value, k: Key, o: Value, h: Host): (rs: seq<Res>)
    ensures |rs| == |vs|
    ensures forall i | 0 <= i < |vs| :: rs[i] == Eval(vs[i], b, k, o, h)
    decreases vs, 1
  {
    seq(|vs|, i requires 0 <= i < |vs| => Eval(vs[i], b, k, o, h))
  }

  /** The query of `$elemMatch` validator `v` applied to each element of an
      array on its own: no key, no parent. */
  function EvalElements(v: Validator, es: seq<Value>, h: Host): (rs: seq<Res>)
    requires v.ElemMatch?
    ensures |rs| == |es|
    ensures forall i | 0 <= i < |es| :: rs[i] == Eval(v.inner, es[i], NoKey, Undefined, h)
    decreases v, 0
  {
    seq(|es|, i requires 0 <= i < |es| => Eval(v.inner, es[i], NoKey, Undefined, h))
  }

  /** The query of field validator `v` applied at each location its path
      resolved to. */
  function EvalAt(v: Validator, ts: seq<Found>, h: Host): (rs: seq<Res>)
    requires v.Nested?
    ensures |rs| == |ts|
    ensures forall i | 0 <= i < |ts| :: rs[i] == Eval(v.inner, ts[i].value, ts[i].key, ts[i].parent, h)
    decreases v, 1
  {
    seq(|ts|, i requires 0 <= i < |ts| => Eval(v.inner, ts[i].value, ts[i].key, ts[i].parent, h))
  }

  /** What each query of the parameter of `$in` validator `v` answers for
      `b`, called with its index as key and the parameter as parent. */
  function EntryResults(v: Validator, b: Value, h: Host): (rs: seq<Res>)
    requires v.In?
    ensures |rs| == |v.entries|
    ensures forall i | 0 <= i < |v.entries| && v.entries[i].Err? :: rs[i] == Threw(v.entries[i].error)
    ensures forall i | 0 <= i < |v.entries| && v.entries[i].Ok? ::
      rs[i] == ThenMaybe(Eval(v.entries[i].value, b, Prop(DecimalString(i)), v.params, h), EntryCheck(b))
    ensures b.Obj? ==> forall i | 0 <= i < |rs| ::
      rs[i] != Sync(true) && (rs[i].Deferred? ==> forall env: nat -> bool :: !Settle(rs[i].f, env))
    decreases v, 1
  {
    seq(|v.entries|, i requires 0 <= i < |v.entries| =>
      assert v.entries[i] in v.entries;
      if v.entries[i].Ok? then ThenMaybe(Eval(v.entries[i].value, b, Prop(DecimalString(i)), v.params, h), EntryCheck(b))
      else Threw(v.entries[i].error))
  }
}

=== FILE: values.dfy ===
/** JavaScript values as the query engine sees them, and the property access
    primitives it uses on them (`get`, `has` and the truthiness and `===` of the
    host language). */
module Values {

  datatype Option<+T> = None | Some(value: T)

  /** A JavaScript value. `Obj` lists a plain object's own enumerable
      properties in the order `for...in` enumerates them (integer-like keys
      first, ascending, then the rest in insertion order); a `Date` carries
      its epoch milliseconds. Numbers are integers. Arrays, objects and dates are
      references: two of them are never `===` in this model. */
  datatype Value =
    | Undefined
    | Null
    | Bool(b: bool)
    | Num(n: int)
    | Str(s: string)
    | Date(ms: int)
    | Arr(elems: seq<Value>)
    | Obj(fields: seq<Field>)
  {
    /** `value == null` in JavaScript: null or undefined. */
    predicate Nullish() {
      Undefined? || Null?
    }
  }

  datatype Field = Field(key: string, val: Value)

  /** The property key a validator receives: a property name, or `undefined`. */
  datatype Key = Prop(name: string) | NoKey

  /** The string a key converts to when it is used as a property name. */
  function KeyName(k: Key): string {
    match k
    case Prop(n) => n
    case NoKey => "undefined"
  }

  function Keys(fs: seq<Field>): (ks: seq<string>)
    ensures |ks| == |fs|
    ensures forall i | 0 <= i < |fs| :: ks[i] == fs[i].key
  {
    seq(|fs|, i requires 0 <= i < |fs| => fs[i].key)
  }

  function KeySet(fs: seq<Field>): set<string> {
    set i | 0 <= i < |fs| :: fs[i].key
  }

  /** `isVanillaObject`: `value.constructor === Object`. An own `constructor`
      property shadows the inherited one, and its value is never the `Object`
      function, which is not a model value. */
  predicate Vanilla(v: Value) {
    v.Obj? && "constructor" !in KeySet(v.fields)
  }

  predicate DistinctKeys(fs: seq<Field>) {
    forall i, j | 0 <= i < j < |fs| :: fs[i].key != fs[j].key
  }

  /** Every object inside `v` has distinct keys, as JavaScript objects do. */
  ghost predicate WellFormed(v: Value) {
    match v
    case Arr(es) => forall i | 0 <= i < |es| :: WellFormed(es[i])
    case Obj(fs) => DistinctKeys(fs) && forall i | 0 <= i < |fs| :: WellFormed(fs[i].val)
    case _ => true
  }

  /** `obj[key]` on a plain object: the first field with that key, else undefined. */
  function Lookup(fs: seq<Field>, k: string): (r: Value)
    ensures k !in KeySet(fs) ==> r == Undefined
    ensures k in KeySet(fs) ==> exists i | 0 <= i < |fs| :: fs[i].key == k && r == fs[i].val
  {
    if |fs| == 0 then Undefined
    else if fs[0].key == k then fs[0].val
    else
      assert KeySet(fs) == {fs[0].key} + KeySet(fs[1..]) by {
        assert forall i | 1 <= i < |fs| :: fs[i].key == fs[1..][i - 1].key;
      }
      Lookup(fs[1..], k)
  }

  lemma {:induction false} LookupDistinct(fs: seq<Field>, i: nat)
    requires DistinctKeys(fs)
    requires i < |fs|
    ensures Lookup(fs, fs[i].key) == fs[i].val
    decreases i
  {
    if i > 0 {
      assert fs[0].key != fs[i].key;
      assert fs[1..][i - 1] == fs[i];
      LookupDistinct(fs[1..], i - 1);
    }
  }

  /** JavaScript truthiness (`!!v`). */
  predicate Truthy(v: Value) {
    match v
    case Undefined => false
    case Null => false
    case Bool(b) => b
    case Num(n) => n != 0
    case Str(s) => |s| > 0
    case _ => true
  }

  /** JavaScript `===`. Arrays, objects and dates are distinct references. */
  predicate StrictEq(a: Value, b: Value) {
    match (a, b)
    case (Undefined, Undefined) => true
    case (Null, Null) => true
    case (Bool(x), Bool(y)) => x == y
    case (Num(x), Num(y)) => x == y
    case (Str(x), Str(y)) => x == y
    case _ => false
  }

  /** A value that is not a reference. */
  predicate Primitive(v: Value) {
    !(v.Date? || v.Arr? || v.Obj?)
  }

  /** The result of JavaScript `typeof`. */
  function TypeOf(v: Value): string {
    match v
    case Undefined => "undefined"
    case Bool(_) => "boolean"
    case Num(_) => "number"
    case Str(_) => "string"
    case _ => "object"
  }

  predicate IsDigit(c: char) {
    '0' <= c <= '9'
  }

  predicate AllDigits(s: string) {
    forall i | 0 <= i < |s| :: IsDigit(s[i])
  }

  function DigitChar(d: nat): (c: char)
    requires d < 10
    ensures IsDigit(c) && c as int - '0' as int == d
  {
    ['0', '1', '2', '3', '4', '5', '6', '7', '8', '9'][d]
  }

  /** The decimal numeral JavaScript produces for a non-negative integer. */
  function DecimalString(n: nat): (s: string)
    ensures |s| >= 1 && AllDigits(s)
    ensures s[0] == '0' ==> s == "0"
    decreases n
  {
    if n < 10 then [DigitChar(n)] else DecimalString(n / 10) + [DigitChar(n % 10)]
  }

  function DigitsValue(s: string): nat
    requires AllDigits(s)
    decreases |s|
  {
    if |s| == 0 then 0
    else DigitsValue(s[..|s| - 1]) * 10 + (s[|s| - 1] as int - '0' as int)
  }

  /** The array index a property name denotes: a canonical decimal numeral. */
  function ArrayIndex(s: string): Option<nat> {
    if |s| > 0 && AllDigits(s) && (s[0] != '0' || |s| == 1) then Some(DigitsValue(s)) else None
  }

  /** Converting an index to a property name and back gives the index again. */
  lemma {:induction false} ArrayIndexOfDecimal(n: nat)
    ensures ArrayIndex(DecimalString(n)) == Some(n)
  {
    DigitsOfDecimal(n);
  }

  lemma {:induction false} DigitsOfDecimal(n: nat)
    ensures DigitsValue(DecimalString(n)) == n
    decreases n
  {
    var s := DecimalString(n);
    if n >= 10 {
      DigitsOfDecimal(n / 10);
      assert s[..|s| - 1] == DecimalString(n / 10);
    }
  }

  /** `get(obj, key)` / `obj[key]` on a value that is not null or undefined.
      Properties inherited from prototypes are not part of the model. */
  function Get(v: Value, k: string): Value
    requires !v.Nullish()
  {
    match v
    case Obj(fs) => Lookup(fs, k)
    case Arr(es) =>
      if k == "length" then Num(|es|)
      else if ArrayIndex(k).Some? && ArrayIndex(k).value < |es| then es[ArrayIndex(k).value]
      else Undefined
    case Str(s) =>
      if k == "length" then Num(|s|)
      else if ArrayIndex(k).Some? && ArrayIndex(k).value < |s| then Str([s[ArrayIndex(k).value]])
      else Undefined
    case _ => Undefined
  }

  /** `Object.prototype.hasOwnProperty.call(v, k)` on a value that is not null
      or undefined (on those the host throws a TypeError). */
  predicate OwnKey(v: Value, k: string)
    requires !v.Nullish()
  {
    match v
    case Obj(fs) => k in KeySet(fs)
    case Arr(es) => k == "length" || (ArrayIndex(k).Some? && ArrayIndex(k).value < |es|)
    case Str(s) => k == "length" || (ArrayIndex(k).Some? && ArrayIndex(k).value < |s|)
    case _ => false
  }

  /** Structural size, the measure that recursive compilation decreases. */
  function Size(v: Value): nat
    decreases v
  {
    match v
    case Arr(es) => 1 + SeqSize(es)
    case Obj(fs) => 1 + FieldsSize(fs)
    case _ => 1
  }

  function SeqSize(es: seq<Value>): nat
    decreases es
  {
    if |es| == 0 then 0 else Size(es[0]) + SeqSize(es[1..])
  }

  function FieldsSize(fs: seq<Field>): nat
    decreases fs
  {
    if |fs| == 0 then 0 else 1 + Size(fs[0].val) + FieldsSize(fs[1..])
  }
}
